=== FILE: README.md ===
# Standard HTTP MongoDB storage — a Dafny model of its core

The modelled system is a declarative REST framework. A host program declares resources, and the framework serves them over HTTP on MongoDB collections. Each resource is a collection: either a list of records or a single "simple" record. The declaration fixes its allowed verbs, static filter, soft-delete flag, custom methods and indexes. The server provides:

- the CRUD routes, each behind Bearer API-key authentication with per-resource permissions;
- validation of request bodies;
- PATCH through a preview, where the patch is applied to a scratch copy that must validate before the real record is replaced;
- a fixed table of JSON error responses.

This project models that core as pure functions on immutable data. Documents and filters are `map<string, Value>`. MongoDB driver calls, the HTTP framework, the struct validator and custom-method handlers are not modelled. Their outcomes are parameters: a found document or an error, a modified count, an inserted id, a validator verdict, a method handler that returns or panics. Each handler is a total function from those outcomes to a reply plus the list of writes it attempted.

One module per source file:

| module | source |
|---|---|
| `Base`, `ObjectIds`, `Documents` | shared vocabulary: options/results, strings, `int64`, ObjectIDs and their hex form, BSON-like values, driver errors |
| `Responses` | core/responses/main.go |
| `Resources` | core/dsl/resources.go |
| `AuthConfig`, `GlobalConfig` | core/dsl/auth.go, core/dsl/global.go |
| `Common` | app/common.go |
| `RecordHelpers` | app/record_helpers.go (ObjectID revision) |
| `SingleRecordHelpers` | app/single_record_helpers.go (string-id revision) |
| `JsonBody` | core/requests/json_body.go |
| `Handlers` | app/handlers.go |
| `Endpoints` | app/endpoints.go |
| `Server` | app/main.go (index preparation, `wrapStatus`) |

The source is partway through a migration. app/endpoints.go and app/main.go use gin and read `resource.ListMethods`, while the handlers and helpers use echo, and the descriptor names that field `Methods`. The model reads the descriptor's `methods` in both places.

The `Endpoints` module goes as far as the source does. It covers the route table, the permissions, the id checks and the custom-method fallbacks. In this revision the bodies of the CRUD routes are unimplemented stubs, so the route model stops where those bodies would begin (`ItemBranch`). The full handlers live in `Handlers`.

## Model

| member | source | states |
|---|---|---|
| Responses.ErrorResponse | core/responses/main.go:15-77 | Each fixed error response is identified by its code (`KindOfCode` reads it back). Exactly the authorization kinds have codes starting with `authorization:`. Each status (400, 401, 403, 404, 405, 409, 500) is produced by exactly the kinds the error table assigns it. |
| Responses.CodesAreDistinct | core/responses/main.go:15-139 | Two different fixed responses never share a code, so a client can branch on `code` alone. |
| Responses.OkWith | core/responses/main.go:79-83 | 200 with the given value as the whole body. |
| Responses.Ok | core/responses/main.go:85-91 | 200 with code `ok`, which is not any error kind's code. |
| Responses.Created | core/responses/main.go:93-99 | 201 with a body holding only the new id. |
| Responses.SplitFirstDot | core/responses/main.go:115-117 | Splitting fails exactly when the namespace has no dot. Otherwise the namespace is head + "." + tail, with no dot in head. |
| Responses.SplitFirstDotOf | core/responses/main.go:115-117 | The split is unique: splitting `h + "." + t` with a dot-free `h` gives back `h` and `t`. |
| Responses.Messages | core/responses/main.go:113-119 | There is one message per violation, in input order. There is no result (the panic) exactly when some namespace lacks a dot. |
| Responses.InvalidFormat | core/responses/main.go:109-123 | 400 `format:invalid`, with errors of the same length and order as the violations; absent exactly when some namespace has no dot. |
| Responses.MessageRecoversNamespace | core/responses/main.go:115-117 | A message drops exactly the first namespace segment: prefixing that segment and a dot gives back `namespace: tag`. |
| Responses.FindOneOperationError | core/responses/main.go:141-152 | Not found if and only if the error is `ErrNoDocuments`; internal error for every other error. |
| Resources.ValidateVerbs | core/dsl/resources.go:62-79 | A list resource accepts a verb list iff no verb exceeds 5. A simple resource accepts it iff no verb is `ListVerb` or beyond `LastVerb`. Any other type accepts every list, and an empty list is always accepted. |
| Resources.VerbsValidDependsOnlyOnElements | core/dsl/resources.go:62-79 | Reordering or repeating the verbs does not change whether the list is valid. |
| Resources.SimpleResourceShape | core/dsl/resources.go:43-57 | A well-formed simple resource has no list verb, only verbs 1..5, and no item projection or item methods. |
| AuthConfig.Prepare | core/dsl/auth.go:9-17 | An empty db becomes `alephvault_http_storage` and an empty collection becomes `auth`. Each field is defaulted independently, and non-empty fields are kept. Both are non-empty afterwards. |
| AuthConfig.PrepareIdempotent | core/dsl/auth.go:9-17 | Preparing twice is the same as preparing once. |
| GlobalConfig.Prepare | core/dsl/global.go:8-13 | A `ListMaxResults` of 0 becomes 1, and any other value is kept, so the result is at least 1. |
| GlobalConfig.PrepareIdempotent | core/dsl/global.go:8-13 | Preparing twice is the same as preparing once. |
| Common.CheckPermission | app/common.go:16-24 | True iff some element of the list is the string `*` or the permission itself; elements that are not strings are skipped. |
| Common.CheckId | app/common.go:26-37 | The parameter is accepted iff it is 24 hex digits, and then the id is its value. Otherwise the id is nil, and a 404 is written iff one was asked for. |
| Common.CheckIdAcceptsPrintedIds | app/common.go:26-37 | The hex form of any id passes the check and yields that id. |
| Common.FindToken | app/common.go:49-56 | The lookup finds a record with this key that has not expired (`valid_until` absent or not before `now`). It finds none only when no such record exists. |
| Common.Permitted | app/common.go:62-76 | Permission is granted iff the `*` entry grants it or the resource's own entry grants it. Entries that are not arrays grant nothing. |
| Common.Authenticate | app/common.go:39-79 | A missing header gives 401 `AuthMissing`. A header not starting with `Bearer ` gives 400 `AuthBadScheme`. The token is the header after 7 characters; no live record for it gives `AuthNotFound`, and an undecodable record gives an internal error. Otherwise the request is authorized iff `Permitted`, else 403 `AuthForbidden`. |
| Common.AddingPermissionKeepsAuthorization | app/common.go:62-76 | Adding a permission string to any entry never withdraws an authorization. |
| Common.WildcardAuthorizesEverything | app/common.go:62-67 | A key whose `*` entry holds `*` is authorized for every resource and permission. |
| Common.ScopedKeyExample | app/common.go:62-76 | `{"orders": ["read"]}` may read orders but not write them, and may not read other resources. |
| Common.ExpiredKeyIsNotFound | app/common.go:49-56 | A key whose records have all expired is `AuthNotFound`, whatever permissions they carry. |
| Common.HasDuplicateCode | app/common.go:85-92 | True iff some write-error code is 11000, 11001, 12582 or 16460. |
| Common.IsDuplicateKeyError | app/common.go:81-97 | True iff a write exception carries a duplicate-key code, or the error text contains `E11000`, `E11001`, `E12582` or `16460`. |
| RecordHelpers.WithIdentity | app/record_helpers.go:42-50 | The composed filter pins `_id` and adds `_deleted: {$ne: true}` iff soft delete is on. Every other static entry is kept unchanged. |
| RecordHelpers.SetId | app/record_helpers.go:36-51 | This revision never fails. The nil id gives exactly the static filter, with no soft-delete clause even under soft delete; any other id gives the identity filter. |
| RecordHelpers.SetIdSoftDeleteSplit | app/record_helpers.go:36-51 | For a non-nil id, `_deleted` is excluded exactly under soft delete, and all other static entries are kept. |
| RecordHelpers.Paginate | app/record_helpers.go:80-86 | The limit is set iff the page size is positive. The skip is set iff the page is positive as well, and is then `page * pageSize` wrapped to `int64`. |
| RecordHelpers.SkipIsWholePages | app/record_helpers.go:80-86 | Without overflow, the skip is a whole number of pages and at least one page. |
| RecordHelpers.SkipWrapsAround | app/record_helpers.go:84 | Page 2^62 with page size 4 wraps to a skip of 0. |
| RecordHelpers.DrainCursor | app/record_helpers.go:96-104 | It succeeds iff every entry decodes, with one element per entry. Otherwise it fails with the first failing entry's error. |
| RecordHelpers.GetMany | app/record_helpers.go:66-107 | A listing uses the static filter (no soft-delete clause) and the paging of `Paginate`. It returns the find error or the drained cursor. |
| RecordHelpers.Flag | app/record_helpers.go:161-164 | The reported flag is true iff the driver's count is positive; errors pass through. |
| RecordHelpers.GetOne | app/record_helpers.go:109-141 | A find-one under the composed filter, returning the driver's outcome. |
| RecordHelpers.DeleteOne | app/record_helpers.go:143-165 | Deletes under the composed filter and reports true iff `DeletedCount > 0`. |
| RecordHelpers.SetUpdate | app/record_helpers.go:182 | The update document is exactly `{"$set": updates}`. |
| RecordHelpers.UpdateOne | app/record_helpers.go:167-189 | Sends `$set` of the patch under the composed filter and reports true iff `ModifiedCount > 0`. |
| RecordHelpers.ReplaceOne | app/record_helpers.go:191-213 | Replaces under the composed filter and reports true iff `ModifiedCount > 0`. |
| RecordHelpers.IdentityWritesExcludeDeleted | app/record_helpers.go:143-213 | Under soft delete, id-scoped delete, update and replace all carry the `_deleted` exclusion. |
| RecordHelpers.ApplySet | app/record_helpers.go:229 | A flat `$set`: the patch's keys take the patch's values, and all other keys keep theirs. |
| RecordHelpers.SimulatedUpdateAsWritten | app/record_helpers.go:215-247 | Upsert and update errors are returned, and so are decode errors. A failed read-back returns neither a value nor an error. On success the preview is the merge, minus `_id`. |
| RecordHelpers.SimulatedUpdate | app/record_helpers.go:215-247 | The preview exists iff every scratch step succeeds. Each failing step's own error is returned, and a preview is the merge without `_id`. |
| RecordHelpers.SimulatedUpdateIsMerge | app/record_helpers.go:215-247 | When every step succeeds, the preview is `(entity + patch) - {_id}`. |
| RecordHelpers.ReadBackErrorSwallowed | app/record_helpers.go:231-232 | A failed read-back gives no value and no error as written, but the read error after the correction. |
| SingleRecordHelpers.SetId | app/single_record_helpers.go:16-33 | An empty id gives the static filter. Any other id fails iff it is not 24 hex digits. When the id's UTF-8 encoding is not 24 bytes long, the error is the driver's invalid-hex error. Otherwise it is the hex decoder's invalid-byte error for a byte of the id that is not a digit. A valid id pins `_id`, adds the soft-delete clause iff soft delete is on, and keeps the other static entries. |
| SingleRecordHelpers.HexError | app/single_record_helpers.go:24-25 | The error `ObjectIDFromHex` reports, with the length counted in UTF-8 bytes. Any byte count but 24 gives invalid hex; otherwise the error is invalid-byte for the first byte that is not a hex digit. |
| SingleRecordHelpers.TwoByteIdFailsOnLeadByte | app/single_record_helpers.go:24-25 | Twelve two-byte characters pass the 24-byte length check; the error names the first character's UTF-8 lead byte. |
| SingleRecordHelpers.WideCharacterIdIsInvalidHex | app/single_record_helpers.go:24-25 | Twenty-four characters with one outside ASCII exceed 24 bytes and give invalid hex. |
| ObjectIds.FromHexReadsBytes | app/single_record_helpers.go:24-25 | Parsing an id by characters succeeds exactly when Go's reading of its bytes does: 24 bytes, each a hex digit. |
| SingleRecordHelpers.ZeroStringIdPinsIdentity | app/single_record_helpers.go:16-33 | Any all-zero 24-digit id is a real identity here: it pins `_id` to the nil id. |
| SingleRecordHelpers.DeleteOne | app/single_record_helpers.go:81-103 | Fails iff the id is malformed. Otherwise it deletes under the composed resource filter and reports true iff `DeletedCount > 0`. |
| SingleRecordHelpers.UpdateOneAsWritten | app/single_record_helpers.go:105-127 | The filter is composed from the empty `filter_`, not the resource filter. The patch is sent as `{"$set": updates}`, and true is reported iff `ModifiedCount > 0`. |
| SingleRecordHelpers.UpdateOne | app/single_record_helpers.go:105-127 | As above, but the filter is composed from the resource filter. |
| SingleRecordHelpers.ReplaceOne | app/single_record_helpers.go:129-151 | Fails iff the id is malformed. Otherwise it replaces under the composed resource filter and reports true iff `ModifiedCount > 0`. |
| SingleRecordHelpers.UpdateIgnoresStaticFilter | app/single_record_helpers.go:114 | As written, the update filter keeps none of the static entries that delete and replace keep. Corrected, all three filters are equal. |
| JsonBody.ReadJSONBody | core/requests/json_body.go:11-34 | A nil target panics. A content type without `application/json` (any case) is rejected before binding, and a failed bind is rejected too. Violations from a validator give `InvalidFormat`. The body is accepted iff every check passes, and for a pointer target the accepted document is the bound one. |
| JsonBody.JsonContentTypeIgnoresCase | core/requests/json_body.go:17 | `Application/JSON; charset=utf-8` counts as JSON. |
| Handlers.Validate | app/handlers.go:17-28 | Passes iff the validator reports no error. Field violations give `InvalidFormat`; a violation whose namespace has no dot panics; any other validator error gives `UnexpectedFormat`. |
| Handlers.SimpleCreate | app/handlers.go:41-60 | Answers `AlreadyExists` iff the singleton can be read, and then writes nothing. Otherwise it inserts the bound body iff the body binds and validates, and a rejected body gets the binding or validation reply with no write. The insert's outcome maps to `Created`, `DuplicateKey` or an internal error. |
| Handlers.SimpleCreateInsertsIffAbsentAndAccepted | app/handlers.go:41-60 | Over all inputs: an insert happens iff the singleton cannot be read and the body is accepted, and it is exactly the bound body. |
| Handlers.ListCreate | app/handlers.go:143-159 | Inserts the bound body iff the body binds and validates; a rejected body gets the binding or validation reply with no write. Duplicate keys answer `DuplicateKey`; other failures are returned raw. |
| Handlers.GetReply | app/handlers.go:62-74 | 200 with the document iff the read succeeds. Errors map exactly as in `FindOneOperationError`. |
| Handlers.SimpleGet | app/handlers.go:62-74 | Reads the singleton with the nil id. |
| Handlers.ListItemGet | app/handlers.go:178-190 | Reads the item with the path id. |
| Handlers.FlagReply | app/handlers.go:76-88 | Ok iff the flag is true, not found iff it is false, internal error iff the operation failed. |
| Handlers.SimpleDelete | app/handlers.go:76-88 | Deletes the nil id; the reply follows the flag. |
| Handlers.ListItemDelete | app/handlers.go:244-256 | Deletes the path id; the reply follows the flag. |
| Handlers.ReplaceHandler | app/handlers.go:124-141 | Replaces iff the body binds and validates, and the reply follows the flag. Otherwise nothing is written and the body's rejection is the reply. |
| Handlers.SimpleReplace | app/handlers.go:124-141 | Every write replaces the nil id with the bound body. |
| Handlers.ListItemReplace | app/handlers.go:225-242 | Every write replaces the path id with the bound body. |
| Handlers.Patch | app/handlers.go:96-117 | A bound patch whose preview exists is replaced as exactly that preview iff the preview validates; an invalid preview gets the validator's reply and no write. A replace happens only along that path. Success answers with the preview plus `_id`, false answers not found. A preview error gives an internal error, no preview gives `UnexpectedFormat`, and an unbound patch gets the binding reply. |
| Handlers.LoadFailure | app/handlers.go:117-121 | A record that cannot be loaded gives the find-one error mapping and no writes. |
| Handlers.SimpleUpdate | app/handlers.go:90-122 | A singleton that cannot be loaded gives the find-one error mapping. A loaded singleton is patched exactly as `Patch` patches a record, under the id read from the loaded record. |
| Handlers.SimpleUpdateReplacesIffPreviewValid | app/handlers.go:90-122 | Over all inputs: the singleton is replaced iff it loads, the patch binds, the preview exists and validates; the replace is the preview under the loaded id. |
| Handlers.SimpleNoReplaceBeforeValidation | app/handlers.go:96-111 | A singleton preview that fails validation leaves the collection untouched and answers with the validator's response. |
| Handlers.ListItemUpdate | app/handlers.go:192-223 | An item that cannot be loaded gives the find-one error mapping. A loaded item is patched exactly as `Patch` patches a record, under the path id. |
| Handlers.NoReplaceBeforeValidation | app/handlers.go:196-205 | A preview that fails validation leaves the collection untouched and answers with the validator's response. |
| Handlers.PatchAnswersMergedRecord | app/handlers.go:196-214 | With the scratch preview and a stored replace, a PATCH answers `(entity + patch) - {_id}` with `_id` set back, and replaces exactly that merge. |
| Handlers.ScratchReadFailureReply | app/handlers.go:199-203 | A failed scratch read-back answers `UnexpectedFormat` as written and an internal error after the correction; neither writes. |
| Handlers.NoOpReplaceIsNotFound | app/handlers.go:231-236 | A replace that modifies nothing answers not found. |
| Handlers.SingleViolationMessage | app/handlers.go:17-28 | One violation on `Model.field` with tag `t` answers 400 `format:invalid` with the single message `field: t`. |
| Handlers.BindParam | app/handlers.go:166-167 | A given `int64` replaces the default; an absent or unparsable value leaves the default. |
| Handlers.ListGet | app/handlers.go:161-176 | `skip` defaults to 0 and `limit` to the default limit. They are passed as page and page size. A `skip` that fails to bind leaves `limit` at its default as well. Success answers 200 with the entries; failure answers an internal error. |
| Handlers.ListSkipCountsPages | app/handlers.go:161-176 | `?skip=s&limit=l` skips `s * l` documents, not `s`. |
| Handlers.ResourceMethod | app/handlers.go:258-282 | Invokes the method iff the name starts with `~` and the rest names a registered method with a handler and the required type. Otherwise answers not found. |
| Handlers.ItemMethod | app/handlers.go:284-308 | The same lookup as `ResourceMethod`, and the invocation also carries the id. |
| Handlers.MethodReachedByItsSigilName | app/handlers.go:258-282 | `~m` reaches a registered method `m` exactly on the route of its own type. |
| Handlers.MethodReplyAsWritten | app/handlers.go:270-280 | A panicking method escapes the recovery, which panics again on `err.Error()` with a nil `err`. |
| Handlers.MethodReply | app/handlers.go:270-280 | A panicking method answers an internal error; no reply is a panic. |
| Handlers.PanickingMethodEscapesRecovery | app/handlers.go:270-276 | The two readings differ exactly on panicking methods: the written one panics, the corrected one answers 500. |
| Endpoints.VerbRoute | app/endpoints.go:38-88 | Each known verb registers one route. Simple resource: create is POST, read GET, update PATCH, replace PUT and delete DELETE, all on the collection path. List resource: list is GET and create POST on the collection; read is GET on the id-or-method path; update, replace and delete are PATCH, PUT and DELETE on the item path. GET needs `read`, DELETE `delete`, the rest `write`. |
| Endpoints.VerbRoutes | app/endpoints.go:122-210 | A route is registered iff some verb in the list registers it. Unknown verbs register nothing. |
| Endpoints.SimpleEndpointsAsWritten | app/endpoints.go:24-104 | Loops over the declared verbs only. A route is registered iff it is the route of a known declared verb, or one of `GET /key/:method` (read) and `POST /key/:method` (write). Nothing else uses the method path. |
| Endpoints.SimpleEndpoints | app/endpoints.go:24-104 | The same over the defaulted verbs. A route is registered iff it is the route of a known verb of the defaulted list, or one of the two method routes. Nothing else uses the method path. |
| Endpoints.SimpleDefaultRoutes | app/endpoints.go:24-104 | With the defaulted loop, a simple resource declaring no verbs registers exactly seven routes, in order. They are POST, GET, PATCH, PUT and DELETE on the collection path, then GET and POST on the method path. |
| Endpoints.ListEndpoints | app/endpoints.go:106-268 | A route is registered iff it is one of the following: the route of a known verb of the defaulted list; `GET /key/:method` (read), when read is not among those verbs; or one of `POST /key/:method`, `GET /key/:id/:method` and `POST /key/:id/:method`, which are always registered. Every route's permission follows its HTTP method. |
| Endpoints.ListDefaultRoutes | app/endpoints.go:114-267 | A list resource declaring no verbs registers exactly nine routes, in order: GET and POST on the collection, GET on the id-or-method path, PATCH, PUT and DELETE on the item path, then POST on the method path and GET and POST on the item-method path. |
| Endpoints.KnownVerbRoutes | app/endpoints.go:122-210 | When every verb is known, the loop registers one route per verb, in verb order, each being that verb's route. |
| Endpoints.RegisterEndpoints | app/endpoints.go:13-22 | Simple resources get the simple table; every other type value gets the list table. |
| Endpoints.RoutesDemandMethodPermission | app/endpoints.go:13-268 | Every registered route authenticates with its HTTP method's permission. |
| Endpoints.PathsDistinct | app/endpoints.go:125-257 | The method path differs from the collection, item, id-or-method and item-method paths. |
| Endpoints.ListMethodFallback | app/endpoints.go:212-237 | A list resource registers `GET /key/:method` iff read is not among its effective verbs. |
| Endpoints.ListEmptyVerbsMeansAll | app/endpoints.go:114-120 | A list resource declaring no verbs gets exactly the routes of one declaring all six. |
| Endpoints.UnknownVerbsIgnored | app/endpoints.go:207-208 | Appending a verb beyond `DeleteVerb` registers nothing more. |
| Endpoints.SimpleDefaultVerbsUnused | app/endpoints.go:31-38 | As written, a simple resource with no verbs gets only the two method routes; corrected, it gets all five CRUD routes. |
| Endpoints.Guarded | app/endpoints.go:143-145 | A denied request writes only the authentication response; an authorized one proceeds. |
| Endpoints.ListView | app/endpoints.go:152-169 | Runs the view iff `~name` selects a registered view with a handler; otherwise writes not found. |
| Endpoints.IdOrMethodAsWritten | app/endpoints.go:142-170 | A refused authentication writes only its own response. Once authorized, a valid id reaches the item branch, and a malformed id writes 404 and then falls through to the method lookup. |
| Endpoints.IdOrMethod | app/endpoints.go:142-170 | A refused authentication writes only its own response. Once authorized, a valid id reaches the item branch and anything else goes to the method lookup alone, so a registered view is never preceded by a 404. |
| Endpoints.MethodFallback | app/endpoints.go:213-236 | A refused authentication writes only its own response; once authorized, the route does the list-view lookup with no id check. |
| Endpoints.SigilNameIsNotAnId | app/endpoints.go:147 | A `~`-prefixed name never passes the id check. |
| Endpoints.ListViewBehindIdRoute | app/endpoints.go:142-170 | For a registered view `m`, `GET /key/~m` writes 404 and then runs `m` as written. Corrected, it only runs `m`, exactly as the fallback route does. |
| Endpoints.ItemRoute | app/endpoints.go:171-206 | A refused authentication writes only its own response. Once authorized, a malformed id writes 404 and stops, and a valid id reaches the item branch with its value. |
| Endpoints.ItemRouteAcceptsPrintedIds | app/endpoints.go:171-206 | The hex form of an id reaches the item branch with that id. |
| Server.MarkerType | app/main.go:169-180 | Gives -1 for `-`, `2dsphere` for `@`, `hashed` for `#` and `text` for `~`; a field starting with any other character is ascending (1). |
| Server.IndexKeysAsWritten | app/main.go:165-182 | A panic iff some field is empty. The keys are exactly the field strings, markers included, each mapped to its marker's type. |
| Server.OrderedIndexKeys | app/main.go:165-182 | One key per field, in declaration order, naming the field without its marker and typed by the marker. |
| Server.KeyReadingsAgreeOnTypes | app/main.go:165-182 | Both readings fail on the same inputs and give each field the same index type. |
| Server.MarkerKeptInKey | app/main.go:181 | A marked field is stored under its marked name, never under the field it is meant to index. |
| Server.KeyOrderLost | app/main.go:166 | `[a, b]` and `[b, a]` build the same keys document; the ordered reading tells them apart. |
| Server.PrepareIndex | app/main.go:163-194 | As written: each index is named after its map key, always sparse, unique as declared; it panics iff some field is empty; its keys document has exactly the field strings as keys, markers included, each typed by its marker. |
| Server.PrepareOrderedIndex | app/main.go:163-194 | Corrected: the same name, sparse and unique flags, with one key per field in declaration order, naming the field without its marker. |
| Server.PrepareIndexKeepsMarker | app/main.go:181-185 | A descending entry `-f` reaches the index as the key `-f` with type -1; corrected, the key is `f`. |
| Server.AuthIndex | app/main.go:146-157 | `{"api-key": 1}`, named `api-key`, unique and sparse. |
| Server.AuthIndexIsADeclaredIndex | app/main.go:146-157 | The auth index is what a declared unique index `api-key` on `api-key` produces. |
| Server.RewriteKind | app/main.go:51-67 | Exactly statuses 404, 500, 405, 403 and 401 are rewritten, each to a fixed kind with the same status. |
| Server.WrapStatus | app/main.go:43-69 | A response is rewritten iff its content type does not contain `application/json` (case-sensitive) and its status is one of the five. The rewrite keeps the status, and 401 becomes `AuthNotFound`. |
| Server.WrapStatusIsStable | app/main.go:43-69 | A rewritten response is JSON, so a second pass leaves it alone. |
| Server.JsonResponsesPassThrough | app/main.go:50 | JSON responses are never rewritten, whatever their status. |

## Left out

- Driver calls (find, insert, update, replace, delete, index creation) and the HTTP framework are not modelled; their outcomes are parameters.
- `makeCreateOne` (both revisions) is a pass-through of the driver's insert. The handlers take its outcome as a parameter.
- The string-id `makeGetOne` decodes through reflection without checking the find error. That is reflection and driver behaviour, so it is not modelled.
- JsonBody.ReadJSONBody / Handlers.ReadBody: the target is taken to be a non-nil pointer. `readJSONBody` (app/handlers.go:30-34) passes `make_()` by value, and the bind writes through `&body`, which is the callee's own copy. Only a pointer target therefore hands the bound record back to the handler. With a value factory such as `dsl.ModelType[T]` (core/dsl/resources.go:36-39), the callee's copy becomes a generic map. A validator then reports a non-struct error, and the type assertion panics. Without a validator, the handler keeps the unbound zero value. The model factory's form is not visible in this revision, so that case is not modelled.
- RecordHelpers.DrainCursor: only the number of entries is kept. The cursor loop appends the cursor itself rather than the decoded element (app/record_helpers.go:102), so the listed values are not modelled.
- RecordHelpers.DrainCursor / RecordHelpers.GetMany: `cursor.Err()` is never consulted after the loop (app/record_helpers.go:97-104). An iteration that fails part-way therefore ends the loop and returns the entries read so far as a success. The model treats the cursor as the complete result set, so that truncation is not represented.
- Sort, projection and `SetReturnKey`/`SetShowRecordID` options are not modelled: they only shape driver results.
- Common.FindToken: the store is a sequence, and the first live match stands for the driver's unspecified pick. The query field `valid_until` differs from the token struct's own `timestamp` tag; that mismatch and the clock are outside the model, and `now` is a parameter.
- JSON and BSON encoding are not modelled. The `_id` strip and re-decode in the simulated update is a map deletion, and the model-type id getter and setter read and write `_id`.
- `$set` is modelled on flat keys; dotted paths are not interpreted.
- Base.ToLower folds ASCII letters only; Go's Unicode case mapping is not modelled.
- Panic recovery outside custom methods is not modelled: `MakeServer`'s recover, gin's custom recovery and the recover in the endpoints' route closures. A `Panicked` reply or a `None` result marks where a panic starts.
- Logging is not modelled.
- The validator's custom tags (`method-name`, `mdb-name`, `mdb-index-entry`) and the struct validator itself are not modelled; the verdict is a parameter.
- Route conflicts that gin itself would reject when routes are registered are not modelled.
- `MakeServer`, `Settings.Prepare`, the connection settings and `Run` are process wiring and I/O.
- The loop over resources and indexes in `prepareIndices` is not modelled: it creates each `PrepareIndex` result in map order and stops at the first failure. Map iteration order is unspecified.
- The scratch collection is shared between concurrent requests; concurrency is not modelled.

## Findings

| source | as written | input that shows it | evidently intended | confidence | as-written member | corrected member |
|---|---|---|---|---|---|---|
| app/endpoints.go:31-38 | The defaulted verb list is computed, but the loop iterates `resource.Verbs`. | A simple resource declaring no verbs gets no CRUD routes. | Loop over the defaulted `verbs`. | not executed; high | Endpoints.SimpleEndpointsAsWritten (shown by Endpoints.SimpleDefaultVerbsUnused) | Endpoints.SimpleEndpoints |
| app/endpoints.go:147 | `checkId(..., true)` writes 404 before the method fallback. | `GET /key/~view`, where `view` is a registered list view. | Check silently, then dispatch the method. | not executed; high | Endpoints.IdOrMethodAsWritten (shown by Endpoints.ListViewBehindIdRoute) | Endpoints.IdOrMethod |
| app/handlers.go:273 | The recovery logs `err.Error()` while `err` is still nil. | Any custom method whose handler panics. | Log the recovered value and answer 500. | not executed; high | Handlers.MethodReplyAsWritten (shown by Handlers.PanickingMethodEscapesRecovery) | Handlers.MethodReply |
| app/record_helpers.go:231-232 | A failed read-back returns the outer `err`, which is nil. | The scratch `FindOne` fails after a successful upsert and update. | Return the read error. | not executed; high | RecordHelpers.SimulatedUpdateAsWritten (shown by RecordHelpers.ReadBackErrorSwallowed, Handlers.ScratchReadFailureReply) | RecordHelpers.SimulatedUpdate |
| app/single_record_helpers.go:114 | `setId(filter_, ...)` is called on the still-empty `filter_`. | A static filter `{"tenant": "a"}` is missing from the update filter. | `setId(filter, ...)`, as delete and replace do. | not executed; high | SingleRecordHelpers.UpdateOneAsWritten (shown by SingleRecordHelpers.UpdateIgnoresStaticFilter) | SingleRecordHelpers.UpdateOne |
| app/main.go:181 | The index key is the whole entry, marker included, and that map is what is sent (line 185). | Entry `-createdAt` asks for a descending index on a field named `-createdAt`, not on `createdAt`. | Key by the entry without its marker. | not executed; medium | Server.PrepareIndex (shown by Server.MarkerKeptInKey and Server.PrepareIndexKeepsMarker) | Server.PrepareOrderedIndex |
| app/main.go:166 | The keys are collected in an unordered `bson.M`. | A compound index `["a", "b"]` builds the same keys as `["b", "a"]`; depending on the driver version, `CreateOne` may instead reject a multi-key map outright. | An ordered keys document (`bson.D`). | not executed; medium | Server.PrepareIndex (shown by Server.KeyOrderLost) | Server.PrepareOrderedIndex |

=== FILE: auth_config.dfy ===
/** The authentication table reference of core/dsl/auth.go and its
    defaulting step. */
module AuthConfig {

  /** `dsl.Auth`: the database and collection holding the API keys. */
  datatype Auth = Auth(db: string, collection: string)

  const DefaultDb: string := "alephvault_http_storage"
  const DefaultCollection: string := "auth"

  /** `Auth.Prepare`: each empty field takes its default, independently of
      the other; a non-empty field is kept. */
  function Prepare(a: Auth): (r: Auth)
    ensures r.db != "" && r.collection != ""
    ensures a.db == "" ==> r.db == DefaultDb
    ensures a.db != "" ==> r.db == a.db
    ensures a.collection == "" ==> r.collection == DefaultCollection
    ensures a.collection != "" ==> r.collection == a.collection
  {
    Auth(if a.db == "" then DefaultDb else a.db,
         if a.collection == "" then DefaultCollection else a.collection)
  }

  /** Preparing twice is preparing once. */
  lemma PrepareIdempotent(a: Auth)
    ensures Prepare(Prepare(a)) == Prepare(a)
  {
  }
}

=== FILE: base.dfy ===
/** Failure-carrying wrappers and the few string operations of Go's `strings`
    package that the framework relies on (prefix test, substring search,
    ASCII lower-casing), plus the 64-bit signed integer range. */
module Base {

  datatype Option<+T> = None | Some(value: T)

  datatype Result<+T, +E> = Success(value: T) | Failure(error: E)

  /** `strings.HasPrefix(s, prefix)` */
  predicate StartsWith(s: string, prefix: string) {
    |prefix| <= |s| && s[..|prefix|] == prefix
  }

  /** `sub` occurs in `s` starting at position `i`. */
  predicate OccursAt(s: string, sub: string, i: int) {
    0 <= i && i + |sub| <= |s| && s[i..i + |sub|] == sub
  }

  /** `strings.Contains(s, sub)` */
  predicate Contains(s: string, sub: string) {
    exists i | 0 <= i <= |s| - |sub| :: OccursAt(s, sub, i)
  }

  function LowerChar(c: char): char {
    if 'A' <= c <= 'Z' then (c as int + 32) as char else c
  }

  /** `strings.ToLower`, restricted to ASCII letters. */
  function ToLower(s: string): (r: string)
    ensures |r| == |s|
    ensures forall i | 0 <= i < |s| :: r[i] == LowerChar(s[i])
  {
    seq(|s|, i requires 0 <= i < |s| => LowerChar(s[i]))
  }

  const Int64Min: int := -0x8000_0000_0000_0000
  const Int64Max: int := 0x7FFF_FFFF_FFFF_FFFF

  predicate InInt64(x: int) {
    Int64Min <= x <= Int64Max
  }

  /** Two's-complement wrap-around of Go's `int64` arithmetic. */
  function WrapInt64(x: int): (r: int)
    ensures InInt64(r)
    ensures (r - x) % 0x1_0000_0000_0000_0000 == 0
    ensures InInt64(x) ==> r == x
  {
    var m := x % 0x1_0000_0000_0000_0000;
    if m > Int64Max then m - 0x1_0000_0000_0000_0000 else m
  }
}

=== FILE: common.dfy ===
/** Authentication, permission lists, id checking and duplicate-key
    classification of app/common.go. */
module Common {
  import opened Base
  import opened ObjectIds
  import opened Documents
  import opened Responses

  /** One element of a permission list grants `permission` when it is a
      string equal to `"*"` or to the permission itself. */
  predicate GrantsEntry(v: Value, permission: string) {
    v.Str? && (v.s == "*" || v.s == permission)
  }

  /** `checkPermission`: scans the list and stops at the first element
      that grants; non-string elements are skipped. */
  function CheckPermission(permission: string, existing: seq<Value>): (r: bool)
    ensures r <==> exists i | 0 <= i < |existing| :: GrantsEntry(existing[i], permission)
  {
    if |existing| == 0 then false
    else if GrantsEntry(existing[0], permission) then true
    else
      assert forall i | 1 <= i < |existing| :: existing[i] == existing[1..][i - 1];
      CheckPermission(permission, existing[1..])
  }

  /** The outcome of `checkId`: the parsed id, whether it parsed, and the
      not-found response written when it did not and one was asked for. */
  datatype IdCheck = IdCheck(id: ObjectId, ok: bool, response: Option<Response>)

  /** `checkId`: a path parameter is a valid id exactly when it is 24
      hexadecimal digits; otherwise the nil id is returned, with a
      not-found response only when `raiseNotFoundOnError` is set. */
  function CheckId(param: string, raiseNotFoundOnError: bool): (r: IdCheck)
    ensures r.ok <==> |param| == 24 && forall i | 0 <= i < |param| :: IsHexDigit(param[i])
    ensures r.ok ==> Some(r.id) == FromHex(param) && r.response.None?
    ensures !r.ok ==> IsZero(r.id)
    ensures !r.ok ==> (r.response.Some? <==> raiseNotFoundOnError)
    ensures !r.ok && raiseNotFoundOnError ==> r.response == Some(ErrorResponse(NotFound))
  {
    match FromHex(param)
    case None =>
      if raiseNotFoundOnError then IdCheck(NilObjectId, false, Some(ErrorResponse(NotFound)))
      else IdCheck(NilObjectId, false, None)
    case Some(id) => IdCheck(id, true, None)
  }

  /** The printed form of any id passes the check and yields that id. */
  lemma CheckIdAcceptsPrintedIds(id: ObjectId, raiseNotFoundOnError: bool)
    ensures CheckId(Hex(id), raiseNotFoundOnError) == IdCheck(id, true, None)
  {
    HexRoundTrip(id);
  }

  /** A stored API-key record. `validUntil` is absent for keys that never
      expire; `decoded` is the record as decoded into `auth.AuthToken`'s
      permissions map, or `None` when decoding fails. */
  datatype TokenRecord = TokenRecord(apiKey: string, validUntil: Option<int>, decoded: Option<Doc>)

  /** The record is not expired at `now`: `valid_until` is absent or not
      less than `now`. */
  predicate Live(t: TokenRecord, now: int) {
    t.validUntil.None? || t.validUntil.value >= now
  }

  /** The token lookup: the first stored record with the given key that is
      not expired. */
  function FindToken(store: seq<TokenRecord>, apiKey: string, now: int): (r: Option<TokenRecord>)
    ensures r.Some? ==> r.value in store && r.value.apiKey == apiKey && Live(r.value, now)
    ensures r.None? <==> forall i | 0 <= i < |store| :: !(store[i].apiKey == apiKey && Live(store[i], now))
  {
    if |store| == 0 then None
    else if store[0].apiKey == apiKey && Live(store[0], now) then Some(store[0])
    else
      assert forall i | 1 <= i < |store| :: store[i] == store[1..][i - 1];
      FindToken(store[1..], apiKey, now)
  }

  const BearerPrefix: string := "Bearer "

  /** An entry of the permissions map grants `permission` when it is an
      array and `checkPermission` accepts it; entries of any other type
      grant nothing. */
  predicate EntryGrants(perms: Doc, entry: string, permission: string) {
    entry in perms && perms[entry].Array? && CheckPermission(permission, perms[entry].items)
  }

  /** The permission decision of `authenticate`: the `"*"` entry is tried
      first, the resource's own entry only when the first did not grant. */
  function Permitted(perms: Doc, key: string, permission: string): (r: bool)
    ensures r <==> EntryGrants(perms, "*", permission) || EntryGrants(perms, key, permission)
  {
    var hasPermission :=
      if "*" in perms && perms["*"].Array? then CheckPermission(permission, perms["*"].items) else false;
    if hasPermission then true
    else if key in perms && perms[key].Array? then CheckPermission(permission, perms[key].items)
    else false
  }

  datatype AuthResult = Authorized | Denied(response: Response)

  /** `authenticate`: the header is checked before any lookup, the token is
      the header without its first seven characters, an unknown or expired
      key is `AuthNotFound`, an undecodable record an internal error, and a
      key whose permissions do not cover the request is `AuthForbidden`. */
  function Authenticate(header: string, key: string, permission: string, store: seq<TokenRecord>, now: int)
    : (r: AuthResult)
    ensures header == "" ==> r == Denied(ErrorResponse(AuthMissing))
    ensures header != "" && !StartsWith(header, BearerPrefix) ==> r == Denied(ErrorResponse(AuthBadScheme))
    ensures StartsWith(header, BearerPrefix) ==>
      var found := FindToken(store, header[7..], now);
      && (found.None? ==> r == Denied(ErrorResponse(AuthNotFound)))
      && (found.Some? && found.value.decoded.None? ==> r == Denied(ErrorResponse(InternalError)))
      && (found.Some? && found.value.decoded.Some? ==>
            (r == Authorized <==> Permitted(found.value.decoded.value, key, permission))
            && (r != Authorized ==> r == Denied(ErrorResponse(AuthForbidden))))
  {
    if header == "" then Denied(ErrorResponse(AuthMissing))
    else if !StartsWith(header, BearerPrefix) then Denied(ErrorResponse(AuthBadScheme))
    else
      match FindToken(store, header[7..], now)
      case None => Denied(ErrorResponse(AuthNotFound))
      case Some(t) =>
        match t.decoded
        case None => Denied(ErrorResponse(InternalError))
        case Some(perms) =>
          if Permitted(perms, key, permission) then Authorized else Denied(ErrorResponse(AuthForbidden))
  }

  /** Adds a permission string to one entry: appended to an array entry,
      or a new one-element array where the entry is missing or not an
      array. */
  function AddPermission(perms: Doc, entry: string, p: string): (r: Doc)
    ensures entry in r && r[entry].Array? && Str(p) in r[entry].items
    ensures entry in perms && perms[entry].Array? ==> r[entry].items == perms[entry].items + [Str(p)]
    ensures forall k | k in perms && k != entry :: k in r && r[k] == perms[k]
  {
    if entry in perms && perms[entry].Array? then perms[entry := Array(perms[entry].items + [Str(p)])]
    else perms[entry := Array([Str(p)])]
  }

  lemma {:induction false} CheckPermissionAppend(permission: string, items: seq<Value>, extra: Value)
    requires CheckPermission(permission, items)
    ensures CheckPermission(permission, items + [extra])
  {
    var i :| 0 <= i < |items| && GrantsEntry(items[i], permission);
    assert (items + [extra])[i] == items[i];
  }

  /** Granting more never takes anything away: adding a permission string to
      any entry keeps every authorized (key, permission) pair authorized. */
  lemma AddingPermissionKeepsAuthorization(perms: Doc, entry: string, p: string, key: string, permission: string)
    requires Permitted(perms, key, permission)
    ensures Permitted(AddPermission(perms, entry, p), key, permission)
  {
    var r := AddPermission(perms, entry, p);
    var k := if EntryGrants(perms, "*", permission) then "*" else key;
    assert EntryGrants(perms, k, permission);
    if k == entry {
      CheckPermissionAppend(permission, perms[k].items, Str(p));
      assert EntryGrants(r, k, permission);
    } else {
      assert EntryGrants(r, k, permission);
    }
  }

  /** A key whose `"*"` entry holds `"*"` is authorized for every resource
      and every permission. */
  lemma WildcardAuthorizesEverything(perms: Doc, key: string, permission: string)
    requires "*" in perms && perms["*"] == Array([Str("*")])
    ensures Permitted(perms, key, permission)
  {
  }


  /** `{"orders": ["read"]}` reads orders, but neither writes them nor reads
      anything else. */
  lemma ScopedKeyExample()
    ensures var perms := map["orders" := Array([Str("read")])];
      && Permitted(perms, "orders", "read")
      && !Permitted(perms, "orders", "write")
      && !Permitted(perms, "billing", "read")
  {
  }


  /** A key whose every stored record has expired is `AuthNotFound`, whatever
      permissions those records carry. */
  lemma ExpiredKeyIsNotFound(token: string, store: seq<TokenRecord>, now: int, key: string, permission: string)
    requires forall i | 0 <= i < |store| :: store[i].apiKey == token ==>
      store[i].validUntil.Some? && store[i].validUntil.value < now
    ensures Authenticate(BearerPrefix + token, key, permission, store, now) == Denied(ErrorResponse(AuthNotFound))
  {
  }


  /** Write-error codes that mean a unique index was violated. */
  const DuplicateKeyCodes: set<int> := {11000, 11001, 12582, 16460}

  /** The fallback pattern `E11000|E11001|E12582|16460` matches the error
      text: one of the alternatives occurs in it. */
  predicate MentionsDuplicateKey(text: string) {
    Contains(text, "E11000") || Contains(text, "E11001") || Contains(text, "E12582") || Contains(text, "16460")
  }

  /** Scans write-error codes, stopping at the first duplicate-key code. */
  function HasDuplicateCode(codes: seq<int>): (r: bool)
    ensures r <==> exists i | 0 <= i < |codes| :: codes[i] in DuplicateKeyCodes
  {
    if |codes| == 0 then false
    else if codes[0] in DuplicateKeyCodes then true
    else
      assert forall i | 1 <= i < |codes| :: codes[i] == codes[1..][i - 1];
      HasDuplicateCode(codes[1..])
  }

  /** `isDuplicateKeyError`: a write exception with a duplicate-key code, or
      else an error text containing one of the markers. */
  function IsDuplicateKeyError(e: StoreError): (r: bool)
    ensures r <==> (e.WriteException? && exists i | 0 <= i < |e.codes| :: e.codes[i] in DuplicateKeyCodes)
                   || MentionsDuplicateKey(ErrorText(e))
  {
    (e.WriteException? && HasDuplicateCode(e.codes)) || MentionsDuplicateKey(ErrorText(e))
  }
}

=== FILE: documents.dfy ===
/** BSON-shaped values, documents and filters (`bson.M`), and the errors the
    storage driver reports. */
module Documents {
  import opened Base
  import opened ObjectIds

  datatype Value =
    | Null
    | Bool(b: bool)
    | Int(i: int)
    | Str(s: string)
    | Id(id: ObjectId)
    | Array(items: seq<Value>)
    | Object(fields: map<string, Value>)

  /** A document or a filter: `bson.M`. */
  type Doc = map<string, Value>

  const IdField: string := "_id"
  const DeletedField: string := "_deleted"

  /** The errors a driver call may end with. `NoDocuments` is
      `mongo.ErrNoDocuments`; a `WriteException` carries the codes of its
      write errors; `InvalidByte` is the hex decoder's error for the first
      byte that is not a hexadecimal digit. */
  datatype StoreError =
    | NoDocuments
    | WriteException(codes: seq<int>, message: string)
    | Failed(message: string)
    | InvalidByte(b: Byte)

  /** `err.Error()` */
  function ErrorText(e: StoreError): string {
    match e
    case NoDocuments => "mongo: no documents in result"
    case WriteException(_, m) => m
    case Failed(m) => m
    case InvalidByte(b) => "encoding/hex: invalid byte: " + CodePointForm(b)
  }

  /** Go's `%#U` of a byte read as a code point: `U+00` and two upper-case
      digits, then the character in single quotes when it is printable
      (the ASCII space and graphic characters, and the graphic Latin-1
      ones, which exclude the no-break space and the soft hyphen). */
  function CodePointForm(b: Byte): string {
    var printable := 0x20 <= b < 0x7F || (0xA1 <= b && b != 0xAD);
    "U+00" + [HexChar(b / 16, true), HexChar(b % 16, true)]
      + (if printable then " '" + [b as char] + "'" else "")
  }

  /** The identity a decoded record carries, or the nil id when it has none
      (the reflection-based id getter of the resource's model type). */
  function IdOf(d: Doc): (id: ObjectId)
    ensures IdField in d && d[IdField].Id? ==> id == d[IdField].id
    ensures !(IdField in d && d[IdField].Id?) ==> IsZero(id)
  {
    if IdField in d && d[IdField].Id? then d[IdField].id else NilObjectId
  }
}

=== FILE: endpoints.dfy ===
/** The route table of app/endpoints.go: which HTTP routes a resource
    registers, the permission each one demands, and the custom-method
    fallback routes. Route bodies past the authentication and id checks
    are not implemented in the source; the model follows each route up to
    the point where it dispatches. */
module Endpoints {
  import opened Base
  import opened ObjectIds
  import opened Documents
  import opened Responses
  import opened Common
  import opened Resources
  import opened Handlers

  datatype HttpMethod = GET | POST | PATCH | PUT | DELETE

  datatype Route = Route(verb: HttpMethod, path: string, permission: string)

  /** The permission an HTTP method demands: reads need `read`, deletions
      `delete`, everything else `write`. */
  function Permission(m: HttpMethod): string {
    match m
    case GET => "read"
    case DELETE => "delete"
    case _ => "write"
  }

  function CollectionPath(key: string): string { "/" + key }
  function ItemPath(key: string): string { "/" + key + "/:id" }
  function IdOrMethodPath(key: string): string { "/" + key + "/:id_or_method" }
  function MethodPath(key: string): string { "/" + key + "/:method" }
  function ItemMethodPath(key: string): string { "/" + key + "/:id/:method" }

  /** The route one verb registers on a resource of the given type; verbs
      the `switch` does not know are ignored. A simple resource serves
      every verb on the collection path; a list serves list and create on
      the collection path, read on the id-or-method path and the rest on
      the item path. */
  function VerbRoute(kind: nat, key: string, verb: nat): (r: Option<Route>)
    ensures r.Some? <==> (if kind == SimpleResource then CreateVerb <= verb <= LastVerb else verb <= LastVerb)
    ensures r.Some? ==> r.value.permission == Permission(r.value.verb)
    ensures r.Some? && kind == SimpleResource ==> r.value.path == CollectionPath(key)
    ensures r.Some? && kind != SimpleResource ==>
      r.value.path in {CollectionPath(key), ItemPath(key), IdOrMethodPath(key)}
    // the simple resource's switch
    ensures kind == SimpleResource && verb == CreateVerb ==> r == Some(Route(POST, CollectionPath(key), "write"))
    ensures kind == SimpleResource && verb == ReadVerb ==> r == Some(Route(GET, CollectionPath(key), "read"))
    ensures kind == SimpleResource && verb == UpdateVerb ==> r == Some(Route(PATCH, CollectionPath(key), "write"))
    ensures kind == SimpleResource && verb == ReplaceVerb ==> r == Some(Route(PUT, CollectionPath(key), "write"))
    ensures kind == SimpleResource && verb == DeleteVerb ==> r == Some(Route(DELETE, CollectionPath(key), "delete"))
    // the list resource's switch
    ensures kind != SimpleResource && verb == ListVerb ==> r == Some(Route(GET, CollectionPath(key), "read"))
    ensures kind != SimpleResource && verb == CreateVerb ==> r == Some(Route(POST, CollectionPath(key), "write"))
    ensures kind != SimpleResource && verb == ReadVerb ==> r == Some(Route(GET, IdOrMethodPath(key), "read"))
    ensures kind != SimpleResource && verb == UpdateVerb ==> r == Some(Route(PATCH, ItemPath(key), "write"))
    ensures kind != SimpleResource && verb == ReplaceVerb ==> r == Some(Route(PUT, ItemPath(key), "write"))
    ensures kind != SimpleResource && verb == DeleteVerb ==> r == Some(Route(DELETE, ItemPath(key), "delete"))
  {
    if kind == SimpleResource then
      if verb == CreateVerb then Some(Route(POST, CollectionPath(key), "write"))
      else if verb == ReadVerb then Some(Route(GET, CollectionPath(key), "read"))
      else if verb == UpdateVerb then Some(Route(PATCH, CollectionPath(key), "write"))
      else if verb == ReplaceVerb then Some(Route(PUT, CollectionPath(key), "write"))
      else if verb == DeleteVerb then Some(Route(DELETE, CollectionPath(key), "delete"))
      else None
    else
      if verb == ListVerb then Some(Route(GET, CollectionPath(key), "read"))
      else if verb == CreateVerb then Some(Route(POST, CollectionPath(key), "write"))
      else if verb == ReadVerb then Some(Route(GET, IdOrMethodPath(key), "read"))
      else if verb == UpdateVerb then Some(Route(PATCH, ItemPath(key), "write"))
      else if verb == ReplaceVerb then Some(Route(PUT, ItemPath(key), "write"))
      else if verb == DeleteVerb then Some(Route(DELETE, ItemPath(key), "delete"))
      else None
  }

  /** The verb loop: the routes of the verbs, in order, unknown ones
      skipped. */
  function VerbRoutes(kind: nat, key: string, verbs: seq<nat>): (r: seq<Route>)
    ensures |r| <= |verbs|
    ensures forall rt :: rt in r <==> exists i | 0 <= i < |verbs| :: VerbRoute(kind, key, verbs[i]) == Some(rt)
  {
    if |verbs| == 0 then []
    else
      var rest := VerbRoutes(kind, key, verbs[1..]);
      assert forall i | 1 <= i < |verbs| :: verbs[i] == verbs[1..][i - 1];
      match VerbRoute(kind, key, verbs[0])
      case None => rest
      case Some(rt) => [rt] + rest
  }

  /** The verbs a simple resource gets when it declares none. */
  const DefaultSimpleVerbs: seq<nat> := [CreateVerb, ReadVerb, UpdateVerb, ReplaceVerb, DeleteVerb]

  /** The verbs a list resource gets when it declares none. */
  const DefaultListVerbs: seq<nat> := [ListVerb, CreateVerb, ReadVerb, UpdateVerb, ReplaceVerb, DeleteVerb]

  function EffectiveVerbs(verbs: seq<nat>, defaults: seq<nat>): (r: seq<nat>)
    ensures |verbs| == 0 ==> r == defaults
    ensures |verbs| != 0 ==> r == verbs
  {
    if |verbs| == 0 then defaults else verbs
  }

  /** `registerSimpleResourceEndpoints` as written: the defaulted verb list
      is computed but the loop runs over the declared verbs, so a simple
      resource declaring none gets no CRUD route at all. */
  function SimpleEndpointsAsWritten(key: string, r: Resource): (routes: seq<Route>)
    ensures forall rt | rt in routes :: rt.permission == Permission(rt.verb)
    ensures Route(GET, MethodPath(key), "read") in routes && Route(POST, MethodPath(key), "write") in routes
    ensures forall rt | rt in routes :: rt.path == CollectionPath(key) || rt.path == MethodPath(key)
    ensures forall rt | rt in routes && rt.path == CollectionPath(key) ::
      exists i | 0 <= i < |r.verbs| :: VerbRoute(SimpleResource, key, r.verbs[i]) == Some(rt)
    ensures forall i | 0 <= i < |r.verbs| && CreateVerb <= r.verbs[i] <= LastVerb ::
      VerbRoute(SimpleResource, key, r.verbs[i]).value in routes
    ensures forall rt | rt in routes && rt.path == MethodPath(key) ::
      rt == Route(GET, MethodPath(key), "read") || rt == Route(POST, MethodPath(key), "write")
    ensures forall rt: Route :: rt in routes <==>
      || (exists i | 0 <= i < |r.verbs| :: VerbRoute(SimpleResource, key, r.verbs[i]) == Some(rt))
      || rt == Route(GET, MethodPath(key), "read") || rt == Route(POST, MethodPath(key), "write")
  {
    var methodRoutes := [Route(GET, MethodPath(key), "read"), Route(POST, MethodPath(key), "write")];
    var routes := VerbRoutes(SimpleResource, key, r.verbs) + methodRoutes;
    assert forall rt :: rt in routes <==> rt in VerbRoutes(SimpleResource, key, r.verbs) || rt in methodRoutes;
    routes
  }

  /** `registerSimpleResourceEndpoints` with the loop over the defaulted
      verbs, as the default list is evidently meant to be used. */
  function SimpleEndpoints(key: string, r: Resource): (routes: seq<Route>)
    ensures forall rt | rt in routes :: rt.permission == Permission(rt.verb)
    ensures Route(GET, MethodPath(key), "read") in routes && Route(POST, MethodPath(key), "write") in routes
    ensures forall rt | rt in routes :: rt.path == CollectionPath(key) || rt.path == MethodPath(key)
    ensures var verbs := EffectiveVerbs(r.verbs, DefaultSimpleVerbs);
      forall rt | rt in routes && rt.path == CollectionPath(key) ::
        exists i | 0 <= i < |verbs| :: VerbRoute(SimpleResource, key, verbs[i]) == Some(rt)
    ensures var verbs := EffectiveVerbs(r.verbs, DefaultSimpleVerbs);
      forall i | 0 <= i < |verbs| && CreateVerb <= verbs[i] <= LastVerb ::
        VerbRoute(SimpleResource, key, verbs[i]).value in routes
    ensures forall rt | rt in routes && rt.path == MethodPath(key) ::
      rt == Route(GET, MethodPath(key), "read") || rt == Route(POST, MethodPath(key), "write")
    ensures var verbs := EffectiveVerbs(r.verbs, DefaultSimpleVerbs);
      forall rt: Route :: rt in routes <==>
        || (exists i | 0 <= i < |verbs| :: VerbRoute(SimpleResource, key, verbs[i]) == Some(rt))
        || rt == Route(GET, MethodPath(key), "read") || rt == Route(POST, MethodPath(key), "write")
  {
    var methodRoutes := [Route(GET, MethodPath(key), "read"), Route(POST, MethodPath(key), "write")];
    var routes := VerbRoutes(SimpleResource, key, EffectiveVerbs(r.verbs, DefaultSimpleVerbs)) + methodRoutes;
    assert forall rt :: rt in routes <==> rt in VerbRoutes(SimpleResource, key, EffectiveVerbs(r.verbs, DefaultSimpleVerbs)) || rt in methodRoutes;
    routes
  }

  /** `registerListResourceEndpoints`: the verb routes over the defaulted
      verbs; a GET method route only when no item read was registered (the
      id-or-method route serves list views otherwise); the POST method route
      and both item-method routes always. */
  function ListEndpoints(key: string, r: Resource): (routes: seq<Route>)
    ensures forall rt | rt in routes :: rt.permission == Permission(rt.verb)
    ensures Route(POST, MethodPath(key), "write") in routes
    ensures Route(GET, ItemMethodPath(key), "read") in routes && Route(POST, ItemMethodPath(key), "write") in routes
    ensures var verbs := EffectiveVerbs(r.verbs, DefaultListVerbs);
      forall i | 0 <= i < |verbs| && verbs[i] <= LastVerb :: VerbRoute(ListResource, key, verbs[i]).value in routes
    ensures var verbs := EffectiveVerbs(r.verbs, DefaultListVerbs);
      forall rt | rt in routes ::
        || (exists i | 0 <= i < |verbs| :: VerbRoute(ListResource, key, verbs[i]) == Some(rt))
        || rt.path == MethodPath(key) || rt.path == ItemMethodPath(key)
    ensures var verbs := EffectiveVerbs(r.verbs, DefaultListVerbs);
      forall rt: Route :: rt in routes <==>
        || (exists i | 0 <= i < |verbs| :: VerbRoute(ListResource, key, verbs[i]) == Some(rt))
        || (ReadVerb !in verbs && rt == Route(GET, MethodPath(key), "read"))
        || rt in [Route(POST, MethodPath(key), "write"),
                  Route(GET, ItemMethodPath(key), "read"),
                  Route(POST, ItemMethodPath(key), "write")]
  {
    var verbs := EffectiveVerbs(r.verbs, DefaultListVerbs);
    var fallback := if ReadVerb !in verbs then [Route(GET, MethodPath(key), "read")] else [];
    var fixed := [Route(POST, MethodPath(key), "write"),
                  Route(GET, ItemMethodPath(key), "read"),
                  Route(POST, ItemMethodPath(key), "write")];
    var routes := VerbRoutes(ListResource, key, verbs) + fallback + fixed;
    assert forall rt :: rt in routes <==> rt in VerbRoutes(ListResource, key, verbs) || rt in fallback || rt in fixed;
    routes
  }

  /** `registerEndpoints`: simple resources get the simple table; every
      other type value is served as a list. */
  function RegisterEndpoints(key: string, r: Resource): (routes: seq<Route>)
    ensures r.kind == SimpleResource ==> routes == SimpleEndpoints(key, r)
    ensures r.kind != SimpleResource ==> routes == ListEndpoints(key, r)
  {
    if r.kind == SimpleResource then SimpleEndpoints(key, r) else ListEndpoints(key, r)
  }

  /** When every verb is known, the loop registers exactly one route per
      verb, in declaration order. */
  lemma {:induction false} KnownVerbRoutes(kind: nat, key: string, verbs: seq<nat>)
    requires forall i | 0 <= i < |verbs| :: VerbRoute(kind, key, verbs[i]).Some?
    ensures |VerbRoutes(kind, key, verbs)| == |verbs|
    ensures forall i | 0 <= i < |verbs| :: VerbRoutes(kind, key, verbs)[i] == VerbRoute(kind, key, verbs[i]).value
  {
    if |verbs| > 0 {
      KnownVerbRoutes(kind, key, verbs[1..]);
      var rest := VerbRoutes(kind, key, verbs[1..]);
      assert VerbRoutes(kind, key, verbs) == [VerbRoute(kind, key, verbs[0]).value] + rest;
    }
  }

  /** With the defaulted loop, a simple resource that declares no verbs
      registers exactly seven routes: create, read, update, replace and
      delete on the collection path, then the two method routes. */
  lemma SimpleDefaultRoutes(key: string, r: Resource)
    requires r.verbs == []
    ensures SimpleEndpoints(key, r) == [
      Route(POST, CollectionPath(key), "write"),
      Route(GET, CollectionPath(key), "read"),
      Route(PATCH, CollectionPath(key), "write"),
      Route(PUT, CollectionPath(key), "write"),
      Route(DELETE, CollectionPath(key), "delete"),
      Route(GET, MethodPath(key), "read"),
      Route(POST, MethodPath(key), "write")]
  {
    DefaultSimpleVerbRoutes(key);
  }

  lemma DefaultSimpleVerbRoutes(key: string)
    ensures VerbRoutes(SimpleResource, key, DefaultSimpleVerbs) == [
      Route(POST, CollectionPath(key), "write"),
      Route(GET, CollectionPath(key), "read"),
      Route(PATCH, CollectionPath(key), "write"),
      Route(PUT, CollectionPath(key), "write"),
      Route(DELETE, CollectionPath(key), "delete")]
  {
    KnownVerbRoutes(SimpleResource, key, DefaultSimpleVerbs);
  }

  /** A list resource that declares no verbs registers exactly nine routes:
      list and create on the collection, read on the id-or-method path,
      update, replace and delete on the item, and the three method routes;
      there is no `GET /key/:method`, since read is among the defaults. */
  lemma ListDefaultRoutes(key: string, r: Resource)
    requires r.verbs == []
    ensures ListEndpoints(key, r) == [
      Route(GET, CollectionPath(key), "read"),
      Route(POST, CollectionPath(key), "write"),
      Route(GET, IdOrMethodPath(key), "read"),
      Route(PATCH, ItemPath(key), "write"),
      Route(PUT, ItemPath(key), "write"),
      Route(DELETE, ItemPath(key), "delete"),
      Route(POST, MethodPath(key), "write"),
      Route(GET, ItemMethodPath(key), "read"),
      Route(POST, ItemMethodPath(key), "write")]
  {
    var defaults := VerbRoutes(ListResource, key, DefaultListVerbs);
    ListEndpointsOfDefaults(key, r);
    DefaultListVerbRoutes(key);
    ConcatDefaultRoutes(key, defaults);
  }

  /** With no declared verbs, the table is the loop over the defaults
      followed by the three method routes. */
  lemma ListEndpointsOfDefaults(key: string, r: Resource)
    requires r.verbs == []
    ensures ListEndpoints(key, r) == VerbRoutes(ListResource, key, DefaultListVerbs) + [
      Route(POST, MethodPath(key), "write"),
      Route(GET, ItemMethodPath(key), "read"),
      Route(POST, ItemMethodPath(key), "write")]
  {
    assert DefaultListVerbs[2] == ReadVerb;
  }

  lemma ConcatDefaultRoutes(key: string, defaults: seq<Route>)
    requires defaults == [
      Route(GET, CollectionPath(key), "read"),
      Route(POST, CollectionPath(key), "write"),
      Route(GET, IdOrMethodPath(key), "read"),
      Route(PATCH, ItemPath(key), "write"),
      Route(PUT, ItemPath(key), "write"),
      Route(DELETE, ItemPath(key), "delete")]
    ensures defaults + [
      Route(POST, MethodPath(key), "write"),
      Route(GET, ItemMethodPath(key), "read"),
      Route(POST, ItemMethodPath(key), "write")] == [
      Route(GET, CollectionPath(key), "read"),
      Route(POST, CollectionPath(key), "write"),
      Route(GET, IdOrMethodPath(key), "read"),
      Route(PATCH, ItemPath(key), "write"),
      Route(PUT, ItemPath(key), "write"),
      Route(DELETE, ItemPath(key), "delete"),
      Route(POST, MethodPath(key), "write"),
      Route(GET, ItemMethodPath(key), "read"),
      Route(POST, ItemMethodPath(key), "write")]
  {
  }

  /** The verb loop over the list defaults, route by route. */
  lemma DefaultListVerbRoutes(key: string)
    ensures VerbRoutes(ListResource, key, DefaultListVerbs) == [
      Route(GET, CollectionPath(key), "read"),
      Route(POST, CollectionPath(key), "write"),
      Route(GET, IdOrMethodPath(key), "read"),
      Route(PATCH, ItemPath(key), "write"),
      Route(PUT, ItemPath(key), "write"),
      Route(DELETE, ItemPath(key), "delete")]
  {
    KnownVerbRoutes(ListResource, key, DefaultListVerbs);
  }

  /** Every registered route authenticates with the permission of its HTTP
      method. */
  lemma RoutesDemandMethodPermission(key: string, r: Resource, rt: Route)
    requires rt in RegisterEndpoints(key, r)
    ensures rt.permission == Permission(rt.verb)
  {
  }

  /** The five path shapes of a key are pairwise distinct. */
  lemma PathsDistinct(key: string)
    ensures MethodPath(key) != CollectionPath(key)
    ensures MethodPath(key) != ItemPath(key)
    ensures MethodPath(key) != IdOrMethodPath(key)
    ensures MethodPath(key) != ItemMethodPath(key)
  {
  }


  /** A list resource answers `GET /key/:method` on a route of its own
      exactly when it has no item-read route. */
  lemma ListMethodFallback(key: string, r: Resource)
    ensures Route(GET, MethodPath(key), "read") in ListEndpoints(key, r)
        <==> ReadVerb !in EffectiveVerbs(r.verbs, DefaultListVerbs)
  {
  }


  /** A list resource that declares no verbs gets exactly the routes of one
      declaring all six. */
  lemma ListEmptyVerbsMeansAll(key: string, r: Resource)
    requires r.verbs == []
    ensures ListEndpoints(key, r) == ListEndpoints(key, r.(verbs := DefaultListVerbs))
  {
  }

  /** Verbs beyond the known six register nothing. */
  lemma UnknownVerbsIgnored(kind: nat, key: string, verbs: seq<nat>, extra: nat)
    requires extra > LastVerb
    ensures VerbRoutes(kind, key, verbs + [extra]) == VerbRoutes(kind, key, verbs)
    decreases |verbs|
  {
    if |verbs| != 0 {
      assert (verbs + [extra])[1..] == verbs[1..] + [extra];
      UnknownVerbsIgnored(kind, key, verbs[1..], extra);
    }
  }

  /** As written, a simple resource without declared verbs only gets its two
      method routes; with the defaulted loop it gets all five CRUD routes on
      the collection path as well. */
  lemma SimpleDefaultVerbsUnused(key: string, r: Resource)
    requires r.verbs == []
    ensures SimpleEndpointsAsWritten(key, r) == [Route(GET, MethodPath(key), "read"), Route(POST, MethodPath(key), "write")]
    ensures Route(POST, CollectionPath(key), "write") in SimpleEndpoints(key, r)
    ensures Route(GET, CollectionPath(key), "read") in SimpleEndpoints(key, r)
    ensures Route(PATCH, CollectionPath(key), "write") in SimpleEndpoints(key, r)
    ensures Route(PUT, CollectionPath(key), "write") in SimpleEndpoints(key, r)
    ensures Route(DELETE, CollectionPath(key), "delete") in SimpleEndpoints(key, r)
  {
    var verbs := EffectiveVerbs(r.verbs, DefaultSimpleVerbs);
    assert VerbRoute(SimpleResource, key, verbs[0]) == Some(Route(POST, CollectionPath(key), "write"));
    assert VerbRoute(SimpleResource, key, verbs[1]) == Some(Route(GET, CollectionPath(key), "read"));
    assert VerbRoute(SimpleResource, key, verbs[2]) == Some(Route(PATCH, CollectionPath(key), "write"));
    assert VerbRoute(SimpleResource, key, verbs[3]) == Some(Route(PUT, CollectionPath(key), "write"));
    assert VerbRoute(SimpleResource, key, verbs[4]) == Some(Route(DELETE, CollectionPath(key), "delete"));
  }

  /** What a route handler does, in order: responses written and custom
      methods invoked; `ItemBranch` marks where the item read with the
      parsed id begins (its body is not implemented in the source). */
  datatype Effect = Wrote(response: Response) | Ran(dispatch: Dispatch) | ItemBranch(id: ObjectId)

  /** The authentication gate in front of every route. */
  function Guarded(auth: AuthResult, next: seq<Effect>): (r: seq<Effect>)
    ensures auth.Denied? ==> r == [Wrote(auth.response)]
    ensures auth.Authorized? ==> r == next
  {
    match auth
    case Denied(resp) => [Wrote(resp)]
    case Authorized => next
  }

  /** The list-view dispatch after the id check: non-sigil names and unknown,
      handler-less or operation methods are not found. */
  function ListView(param: string, methods: map<string, MethodEntry>, filter: Doc): (r: seq<Effect>)
    ensures Selects(param, methods, View) ==> r == [Ran(Invoke(param[1..], filter, None))]
    ensures !Selects(param, methods, View) ==> r == [Wrote(ErrorResponse(NotFound))]
  {
    var d := ResourceMethod(param, methods, View, filter);
    match d
    case NoMethod(resp) => [Wrote(resp)]
    case Invoke(_, _, _) => [Ran(d)]
  }

  /** `GET /key/:id_or_method` as written: the id check is asked to write
      not-found on a malformed id, and its failure then falls through to
      the method lookup, so a list view is always preceded by a written
      404. */
  function IdOrMethodAsWritten(auth: AuthResult, param: string, methods: map<string, MethodEntry>, filter: Doc)
    : (r: seq<Effect>)
    ensures auth.Denied? ==> r == [Wrote(auth.response)]
    ensures auth.Authorized? && CheckId(param, true).ok ==> r == [ItemBranch(CheckId(param, true).id)]
    ensures auth.Authorized? && !CheckId(param, true).ok ==>
      r == [Wrote(ErrorResponse(NotFound))] + ListView(param, methods, filter)
  {
    var check := CheckId(param, true);
    Guarded(auth,
      if check.ok then [ItemBranch(check.id)]
      else [Wrote(check.response.value)] + ListView(param, methods, filter))
  }

  /** `GET /key/:id_or_method` with the silent id check the fall-through
      needs: a malformed id goes straight to the method lookup. */
  function IdOrMethod(auth: AuthResult, param: string, methods: map<string, MethodEntry>, filter: Doc)
    : (r: seq<Effect>)
    ensures auth.Denied? ==> r == [Wrote(auth.response)]
    ensures auth.Authorized? && CheckId(param, false).ok ==> r == [ItemBranch(CheckId(param, false).id)]
    ensures auth.Authorized? && !CheckId(param, false).ok ==> r == ListView(param, methods, filter)
    ensures auth.Authorized? ==> Wrote(ErrorResponse(NotFound)) !in r || !Selects(param, methods, View)
  {
    var check := CheckId(param, false);
    Guarded(auth, if check.ok then [ItemBranch(check.id)] else ListView(param, methods, filter))
  }

  /** The fallback `GET /key/:method` route: the same lookup, with no id
      check. */
  function MethodFallback(auth: AuthResult, param: string, methods: map<string, MethodEntry>, filter: Doc)
    : (r: seq<Effect>)
    ensures auth.Denied? ==> r == [Wrote(auth.response)]
    ensures auth.Authorized? ==> r == ListView(param, methods, filter)
  {
    Guarded(auth, ListView(param, methods, filter))
  }

  /** A sigil name is never a valid id. */
  lemma SigilNameIsNotAnId(m: string, raiseNotFoundOnError: bool)
    ensures !CheckId(MethodSigil + m, raiseNotFoundOnError).ok
  {
  }


  /** For a registered list view `m`, `GET /key/~m` as written writes 404
      before running the view; with the silent id check it runs the view
      only, exactly as the fallback route does when there is no item read. */
  lemma ListViewBehindIdRoute(m: string, methods: map<string, MethodEntry>, filter: Doc)
    requires m in methods && methods[m] == MethodEntry(View, true)
    ensures IdOrMethodAsWritten(Authorized, MethodSigil + m, methods, filter)
         == [Wrote(ErrorResponse(NotFound)), Ran(Invoke(m, filter, None))]
    ensures IdOrMethod(Authorized, MethodSigil + m, methods, filter) == [Ran(Invoke(m, filter, None))]
    ensures IdOrMethod(Authorized, MethodSigil + m, methods, filter)
         == MethodFallback(Authorized, MethodSigil + m, methods, filter)
  {
  }


  /** An id check failure on the item routes writes not-found and stops. */
  function ItemRoute(auth: AuthResult, param: string): (r: seq<Effect>)
    ensures auth.Denied? ==> r == [Wrote(auth.response)]
    ensures auth.Authorized? && !CheckId(param, true).ok ==> r == [Wrote(ErrorResponse(NotFound))]
    ensures auth.Authorized? && CheckId(param, true).ok ==> r == [ItemBranch(CheckId(param, true).id)]
  {
    var check := CheckId(param, true);
    Guarded(auth, if check.ok then [ItemBranch(check.id)] else [Wrote(check.response.value)])
  }

  /** The printed form of an id reaches the item branch with that id. */
  lemma ItemRouteAcceptsPrintedIds(id: ObjectId)
    ensures ItemRoute(Authorized, Hex(id)) == [ItemBranch(id)]
  {
    CheckIdAcceptsPrintedIds(id, true);
  }
}

=== FILE: global_config.dfy ===
/** The global settings of core/dsl/global.go and their defaulting step. */
module GlobalConfig {

  /** `dsl.Global`; `ListMaxResults` is an unsigned integer. */
  datatype Global = Global(listMaxResults: nat)

  /** `Global.Prepare`: a zero page-size cap becomes 1, any other value is
      kept. */
  function Prepare(g: Global): (r: Global)
    ensures r.listMaxResults >= 1
    ensures g.listMaxResults == 0 ==> r.listMaxResults == 1
    ensures g.listMaxResults != 0 ==> r == g
  {
    if g.listMaxResults == 0 then Global(1) else g
  }

  /** Preparing twice is preparing once. */
  lemma PrepareIdempotent(g: Global)
    ensures Prepare(Prepare(g)) == Prepare(g)
  {
  }
}

=== FILE: handlers.dfy ===
/** The CRUD handlers and custom-method dispatch of app/handlers.go. Each
    handler is a total function from the outcomes of the bound record
    operations (passed in as functions of their arguments), the request body
    and the validator's verdict to a reply, together with the writes it
    made on the resource's collection. */
module Handlers {
  import opened Base
  import opened ObjectIds
  import opened Documents
  import opened Responses
  import opened Common
  import opened JsonBody
  import opened Resources
  import RecordHelpers

  /** What a handler returns: a written response, a raw driver error handed
      to the framework, the reply of a custom method's own handler, or a
      panic. */
  datatype Reply = Respond(response: Response) | Raw(err: StoreError) | HandledBy(name: string) | Panicked

  /** A mutation of the resource's collection that a handler invoked. */
  datatype Write = Insert(doc: Doc) | Replace(id: ObjectId, doc: Doc) | Delete(id: ObjectId)

  datatype Handled = Handled(reply: Reply, writes: seq<Write>)

  /** The request as the body reader sees it: its content type and what
      binding the body produced (`None` when it did not bind). */
  datatype Request = Request(contentType: string, bound: Option<Doc>)

  /** `readJSONBody` with a model factory that yields a non-nil pointer, so
      the bind fills the very record the handler goes on to use. */
  function ReadBody(req: Request, validator: Option<Doc -> Validation>): BodyResult {
    ReadJSONBody(req.contentType, false, req.bound, validator)
  }

  /** The reply for a body that was not accepted. */
  function BodyReply(b: BodyResult): Reply
    requires !b.BodyOk?
  {
    if b.BodyRejected? then Respond(b.response) else Panicked
  }

  datatype Check = Passed | Rejected(reply: Reply)

  /** `validate`: field violations become `InvalidFormat`, any other
      validator error `UnexpectedFormat`. */
  function Validate(v: Validation): (c: Check)
    ensures c.Passed? <==> v.Valid?
    ensures v.NotStruct? ==> c == Rejected(Respond(ErrorResponse(UnexpectedFormat)))
    ensures v.Invalid? && InvalidFormat(v.violations).Some? ==> c == Rejected(Respond(InvalidFormat(v.violations).value))
    ensures v.Invalid? && InvalidFormat(v.violations).None? ==> c == Rejected(Panicked)
  {
    match v
    case Valid => Passed
    case Invalid(vs) =>
      (match InvalidFormat(vs)
       case None => Rejected(Panicked)
       case Some(resp) => Rejected(Respond(resp)))
    case NotStruct => Rejected(Respond(ErrorResponse(UnexpectedFormat)))
  }

  /** The reply to a create attempt. */
  function CreateReply(outcome: Result<ObjectId, StoreError>, rawOtherErrors: bool): Reply {
    match outcome
    case Success(id) => Respond(Created(id))
    case Failure(e) =>
      if IsDuplicateKeyError(e) then Respond(ErrorResponse(DuplicateKey))
      else if rawOtherErrors then Raw(e)
      else Respond(ErrorResponse(InternalError))
  }

  /** `simpleCreate`: an existing singleton is a conflict and nothing is
      inserted; only a body that binds and validates is inserted. Note that
      any failure of the existence check, not only "no documents", lets the
      create go ahead. */
  function SimpleCreate(
    getOne: ObjectId -> Result<Doc, StoreError>, req: Request, validator: Doc -> Validation,
    createOne: Doc -> Result<ObjectId, StoreError>): (r: Handled)
    ensures r.reply == Respond(ErrorResponse(AlreadyExists)) <==> getOne(NilObjectId).Success?
    ensures getOne(NilObjectId).Success? ==> r.writes == []
    ensures getOne(NilObjectId).Failure? ==> (r.writes != [] <==> ReadBody(req, Some(validator)).BodyOk?)
    ensures getOne(NilObjectId).Failure? && !ReadBody(req, Some(validator)).BodyOk? ==>
      r == Handled(BodyReply(ReadBody(req, Some(validator))), [])
    ensures r.writes != [] ==>
      && getOne(NilObjectId).Failure?
      && req.bound.Some? && IsJsonContentType(req.contentType) && validator(req.bound.value) == Valid
      && r.writes == [Insert(req.bound.value)]
    ensures r.writes != [] ==>
      match createOne(req.bound.value)
      case Success(id) => r.reply == Respond(Created(id))
      case Failure(e) => r.reply == Respond(ErrorResponse(if IsDuplicateKeyError(e) then DuplicateKey else InternalError))
  {
    if getOne(NilObjectId).Success? then Handled(Respond(ErrorResponse(AlreadyExists)), [])
    else
      var body := ReadBody(req, Some(validator));
      if body.BodyOk? then Handled(CreateReply(createOne(body.doc), false), [Insert(body.doc)])
      else Handled(BodyReply(body), [])
  }

  /** `listCreate`: as the simple create without the existence check, but a
      failure other than a duplicate key is returned raw. */
  function ListCreate(req: Request, validator: Doc -> Validation, createOne: Doc -> Result<ObjectId, StoreError>)
    : (r: Handled)
    ensures r.writes != [] <==> ReadBody(req, Some(validator)).BodyOk?
    ensures !ReadBody(req, Some(validator)).BodyOk? ==> r == Handled(BodyReply(ReadBody(req, Some(validator))), [])
    ensures r.writes != [] ==> validator(req.bound.value) == Valid && r.writes == [Insert(req.bound.value)]
    ensures r.writes != [] ==>
      match createOne(req.bound.value)
      case Success(id) => r.reply == Respond(Created(id))
      case Failure(e) => r.reply == (if IsDuplicateKeyError(e) then Respond(ErrorResponse(DuplicateKey)) else Raw(e))
  {
    var body := ReadBody(req, Some(validator));
    if body.BodyOk? then Handled(CreateReply(createOne(body.doc), true), [Insert(body.doc)])
    else Handled(BodyReply(body), [])
  }

  /** The reply to a read: the document, or the find-one error mapping. */
  function GetReply(outcome: Result<Doc, StoreError>): (r: Response)
    ensures r.status == 200 <==> outcome.Success?
    ensures outcome.Success? ==> r == OkWith(Object(outcome.value))
    ensures outcome.Failure? ==> r == FindOneOperationError(outcome.error)
    ensures r == ErrorResponse(NotFound) <==> outcome == Failure(NoDocuments)
  {
    match outcome
    case Success(d) => OkWith(Object(d))
    case Failure(e) => if e.NoDocuments? then ErrorResponse(NotFound) else ErrorResponse(InternalError)
  }

  /** `simpleGet`: reads the singleton with the nil id. */
  function SimpleGet(getOne: ObjectId -> Result<Doc, StoreError>): (r: Response)
    ensures r == GetReply(getOne(NilObjectId))
    ensures r.status == 200 <==> getOne(NilObjectId).Success?
  {
    GetReply(getOne(NilObjectId))
  }

  /** `listItemGet`: reads the item with the path id. */
  function ListItemGet(getOne: ObjectId -> Result<Doc, StoreError>, id: ObjectId): (r: Response)
    ensures r == GetReply(getOne(id))
    ensures r.status == 200 <==> getOne(id).Success?
  {
    GetReply(getOne(id))
  }

  /** The reply to a delete or replace: ok, not found for a false flag,
      internal error for a failure. */
  function FlagReply(outcome: Result<bool, StoreError>): (r: Response)
    ensures r == Ok() <==> outcome == Success(true)
    ensures r == ErrorResponse(NotFound) <==> outcome == Success(false)
    ensures r == ErrorResponse(InternalError) <==> outcome.Failure?
  {
    match outcome
    case Success(b) => if b then Ok() else ErrorResponse(NotFound)
    case Failure(_) => ErrorResponse(InternalError)
  }

  /** `simpleDelete` */
  function SimpleDelete(deleteOne: ObjectId -> Result<bool, StoreError>): (r: Handled)
    ensures r.writes == [Delete(NilObjectId)]
    ensures r.reply == Respond(FlagReply(deleteOne(NilObjectId)))
  {
    Handled(Respond(FlagReply(deleteOne(NilObjectId))), [Delete(NilObjectId)])
  }

  /** `listItemDelete` */
  function ListItemDelete(deleteOne: ObjectId -> Result<bool, StoreError>, id: ObjectId): (r: Handled)
    ensures r.writes == [Delete(id)]
    ensures r.reply == Respond(FlagReply(deleteOne(id)))
  {
    Handled(Respond(FlagReply(deleteOne(id))), [Delete(id)])
  }

  /** The PUT handler body shared by `simpleReplace` (nil id) and
      `listItemReplace` (path id): replaces only with a validated body. */
  function ReplaceHandler(id: ObjectId, req: Request, validator: Doc -> Validation,
                          replaceOne: (ObjectId, Doc) -> Result<bool, StoreError>): (r: Handled)
    ensures r.writes != [] <==> ReadBody(req, Some(validator)).BodyOk?
    ensures r.writes != [] ==>
      && validator(req.bound.value) == Valid
      && r.writes == [Replace(id, req.bound.value)]
      && r.reply == Respond(FlagReply(replaceOne(id, req.bound.value)))
    ensures r.writes == [] ==> r.reply == BodyReply(ReadBody(req, Some(validator)))
  {
    var body := ReadBody(req, Some(validator));
    if body.BodyOk? then Handled(Respond(FlagReply(replaceOne(id, body.doc))), [Replace(id, body.doc)])
    else Handled(BodyReply(body), [])
  }

  function SimpleReplace(req: Request, validator: Doc -> Validation, replaceOne: (ObjectId, Doc) -> Result<bool, StoreError>)
    : (r: Handled)
    ensures r == ReplaceHandler(NilObjectId, req, validator, replaceOne)
    ensures forall w | w in r.writes :: w == Replace(NilObjectId, req.bound.value)
  {
    ReplaceHandler(NilObjectId, req, validator, replaceOne)
  }

  function ListItemReplace(req: Request, validator: Doc -> Validation,
                           replaceOne: (ObjectId, Doc) -> Result<bool, StoreError>, id: ObjectId): (r: Handled)
    ensures r == ReplaceHandler(id, req, validator, replaceOne)
    ensures forall w | w in r.writes :: w == Replace(id, req.bound.value)
  {
    ReplaceHandler(id, req, validator, replaceOne)
  }

  /** The PATCH handler body once the record is loaded: bind the patch
      without validation, preview it on the scratch collection, validate the
      preview, and only then replace; on success the reply is the preview
      with the id set back on it. A preview read that came back empty is
      handed to the validator as nil, which answers `UnexpectedFormat`. */
  function Patch(id: ObjectId, element: Doc, req: Request,
                 simulate: (ObjectId, Doc, Doc) -> Result<Option<Doc>, StoreError>,
                 validator: Doc -> Validation,
                 replaceOne: (ObjectId, Doc) -> Result<bool, StoreError>): (r: Handled)
    ensures r.writes != [] ==>
      && ReadBody(req, None).BodyOk?
      && var preview := simulate(id, element, req.bound.value);
      && preview.Success? && preview.value.Some?
      && validator(preview.value.value) == Valid
      && r.writes == [Replace(id, preview.value.value)]
      && (match replaceOne(id, preview.value.value)
          case Success(true) => r.reply == Respond(OkWith(Object(preview.value.value[IdField := Id(id)])))
          case Success(false) => r.reply == Respond(ErrorResponse(NotFound))
          case Failure(_) => r.reply == Respond(ErrorResponse(InternalError)))
    ensures ReadBody(req, None).BodyOk? && simulate(id, element, req.bound.value).Failure? ==>
      r == Handled(Respond(ErrorResponse(InternalError)), [])
    ensures ReadBody(req, None).BodyOk? && simulate(id, element, req.bound.value) == Success(None) ==>
      r == Handled(Respond(ErrorResponse(UnexpectedFormat)), [])
    ensures ReadBody(req, None).BodyOk? ==>
      var s := simulate(id, element, req.bound.value);
      s.Success? && s.value.Some? && validator(s.value.value) == Valid ==>
        r.writes == [Replace(id, s.value.value)]
    ensures ReadBody(req, None).BodyOk? ==>
      var s := simulate(id, element, req.bound.value);
      s.Success? && s.value.Some? && !validator(s.value.value).Valid? ==>
        r == Handled(Validate(validator(s.value.value)).reply, [])
    ensures !ReadBody(req, None).BodyOk? ==> r == Handled(BodyReply(ReadBody(req, None)), [])
  {
    var body := ReadBody(req, None);
    if !body.BodyOk? then Handled(BodyReply(body), [])
    else
      match simulate(id, element, body.doc)
      case Failure(_) => Handled(Respond(ErrorResponse(InternalError)), [])
      case Success(None) => Handled(Respond(ErrorResponse(UnexpectedFormat)), [])
      case Success(Some(preview)) =>
        match Validate(validator(preview))
        case Rejected(reply) => Handled(reply, [])
        case Passed =>
          var reply :=
            match replaceOne(id, preview)
            case Failure(_) => Respond(ErrorResponse(InternalError))
            case Success(true) => Respond(OkWith(Object(preview[IdField := Id(id)])))
            case Success(false) => Respond(ErrorResponse(NotFound));
          Handled(reply, [Replace(id, preview)])
  }

  /** The reply when the record to patch could not be loaded. */
  function LoadFailure(e: StoreError): (r: Handled)
    ensures r.writes == []
    ensures r.reply == Respond(FindOneOperationError(e))
  {
    if e.NoDocuments? then Handled(Respond(ErrorResponse(NotFound)), [])
    else Handled(Respond(ErrorResponse(InternalError)), [])
  }

  /** `simpleUpdate`: the id comes from the loaded singleton itself. */
  function SimpleUpdate(getOne: ObjectId -> Result<Doc, StoreError>, req: Request,
                        simulate: (ObjectId, Doc, Doc) -> Result<Option<Doc>, StoreError>,
                        validator: Doc -> Validation,
                        replaceOne: (ObjectId, Doc) -> Result<bool, StoreError>): (r: Handled)
    ensures getOne(NilObjectId).Failure? ==> r == LoadFailure(getOne(NilObjectId).error)
    ensures getOne(NilObjectId).Success? ==>
      r == Patch(IdOf(getOne(NilObjectId).value), getOne(NilObjectId).value, req, simulate, validator, replaceOne)
    ensures r.writes != [] ==> getOne(NilObjectId).Success? && ReadBody(req, None).BodyOk?
    ensures forall w | w in r.writes :: w.Replace? && w.id == IdOf(getOne(NilObjectId).value)
  {
    match getOne(NilObjectId)
    case Failure(e) => LoadFailure(e)
    case Success(element) => Patch(IdOf(element), element, req, simulate, validator, replaceOne)
  }

  /** `listItemUpdate`: the id is the path id. */
  function ListItemUpdate(getOne: ObjectId -> Result<Doc, StoreError>, id: ObjectId, req: Request,
                          simulate: (ObjectId, Doc, Doc) -> Result<Option<Doc>, StoreError>,
                          validator: Doc -> Validation,
                          replaceOne: (ObjectId, Doc) -> Result<bool, StoreError>): (r: Handled)
    ensures getOne(id).Failure? ==> r == LoadFailure(getOne(id).error)
    ensures getOne(id).Success? ==> r == Patch(id, getOne(id).value, req, simulate, validator, replaceOne)
    ensures r.writes != [] ==> getOne(id).Success? && ReadBody(req, None).BodyOk?
    ensures forall w | w in r.writes :: w.Replace? && w.id == id
  {
    match getOne(id)
    case Failure(e) => LoadFailure(e)
    case Success(element) => Patch(id, element, req, simulate, validator, replaceOne)
  }

  /** A PATCH never writes to the collection unless the full preview passed
      validation: a rejected preview leaves the stored record untouched and
      answers with the validator's response. */
  lemma NoReplaceBeforeValidation(getOne: ObjectId -> Result<Doc, StoreError>, id: ObjectId, req: Request,
                                  simulate: (ObjectId, Doc, Doc) -> Result<Option<Doc>, StoreError>,
                                  validator: Doc -> Validation,
                                  replaceOne: (ObjectId, Doc) -> Result<bool, StoreError>)
    requires getOne(id).Success? && ReadBody(req, None).BodyOk?
    requires simulate(id, getOne(id).value, req.bound.value).Success?
    requires simulate(id, getOne(id).value, req.bound.value).value.Some?
    requires !validator(simulate(id, getOne(id).value, req.bound.value).value.value).Valid?
    ensures ListItemUpdate(getOne, id, req, simulate, validator, replaceOne).writes == []
    ensures ListItemUpdate(getOne, id, req, simulate, validator, replaceOne).reply
         == Validate(validator(simulate(id, getOne(id).value, req.bound.value).value.value)).reply
  {
  }

  /** The singleton PATCH commits nothing unless the full preview passed
      validation: a rejected preview leaves the stored record untouched and
      answers with the validator's response. */
  lemma SimpleNoReplaceBeforeValidation(getOne: ObjectId -> Result<Doc, StoreError>, req: Request,
                                        simulate: (ObjectId, Doc, Doc) -> Result<Option<Doc>, StoreError>,
                                        validator: Doc -> Validation,
                                        replaceOne: (ObjectId, Doc) -> Result<bool, StoreError>)
    requires getOne(NilObjectId).Success? && ReadBody(req, None).BodyOk?
    requires var e := getOne(NilObjectId).value;
      && simulate(IdOf(e), e, req.bound.value).Success?
      && simulate(IdOf(e), e, req.bound.value).value.Some?
      && !validator(simulate(IdOf(e), e, req.bound.value).value.value).Valid?
    ensures SimpleUpdate(getOne, req, simulate, validator, replaceOne).writes == []
    ensures var e := getOne(NilObjectId).value;
      SimpleUpdate(getOne, req, simulate, validator, replaceOne).reply
        == Validate(validator(simulate(IdOf(e), e, req.bound.value).value.value)).reply
  {
  }

  /** The singleton PATCH replaces the stored record under its own id with
      exactly the preview, iff the record loads, the patch binds, the
      preview exists and it validates. */
  lemma SimpleUpdateReplacesIffPreviewValid(getOne: ObjectId -> Result<Doc, StoreError>, req: Request,
                                            simulate: (ObjectId, Doc, Doc) -> Result<Option<Doc>, StoreError>,
                                            validator: Doc -> Validation,
                                            replaceOne: (ObjectId, Doc) -> Result<bool, StoreError>)
    ensures var r := SimpleUpdate(getOne, req, simulate, validator, replaceOne);
      r.writes != [] <==>
        && getOne(NilObjectId).Success? && ReadBody(req, None).BodyOk?
        && var e := getOne(NilObjectId).value;
           var s := simulate(IdOf(e), e, req.bound.value);
           s.Success? && s.value.Some? && validator(s.value.value) == Valid
    ensures var r := SimpleUpdate(getOne, req, simulate, validator, replaceOne);
      r.writes != [] ==>
        var e := getOne(NilObjectId).value;
        r.writes == [Replace(IdOf(e), simulate(IdOf(e), e, req.bound.value).value.value)]
  {
  }

  /** The singleton is created iff it cannot be read and the body is
      accepted; the insert is then the bound body, and it happens at most
      once. */
  lemma SimpleCreateInsertsIffAbsentAndAccepted(
    getOne: ObjectId -> Result<Doc, StoreError>, req: Request, validator: Doc -> Validation,
    createOne: Doc -> Result<ObjectId, StoreError>)
    ensures var r := SimpleCreate(getOne, req, validator, createOne);
      r.writes != [] <==> getOne(NilObjectId).Failure? && ReadBody(req, Some(validator)).BodyOk?
    ensures var r := SimpleCreate(getOne, req, validator, createOne);
      r.writes != [] ==> r.writes == [Insert(req.bound.value)]
  {
  }

  /** End to end with the scratch-collection preview: a patch whose merged
      document validates and is stored answers with the entity overridden
      by the patch, its id set back, and replaces exactly that merge. */
  lemma PatchAnswersMergedRecord(entity: Doc, id: ObjectId, patch: Doc, contentType: string,
                                 validator: Doc -> Validation, filter: Doc, softDelete: bool)
    requires IsJsonContentType(contentType)
    requires validator((entity + patch) - {IdField}) == Valid
    ensures var merged := (entity + patch) - {IdField};
      ListItemUpdate(
        _ => Success(entity), id, Request(contentType, Some(patch)),
        (i: ObjectId, e: Doc, u: Doc) => RecordHelpers.SimulatedUpdate(i, e, u, RecordHelpers.ScratchOutcomes(None, None, None, None)),
        validator,
        (i: ObjectId, d: Doc) => RecordHelpers.ReplaceOne(filter, softDelete, i, d, Success(1)).result)
      == Handled(Respond(OkWith(Object(merged[IdField := Id(id)]))), [Replace(id, merged)])
  {
    RecordHelpers.SimulatedUpdateIsMerge(id, entity, patch);
  }

  /** A scratch read-back failure: as written the simulated update returns
      no value and no error, so the PATCH answers `UnexpectedFormat`; with
      the error reported it answers an internal error. Neither writes. */
  lemma ScratchReadFailureReply(entity: Doc, id: ObjectId, patch: Doc, contentType: string,
                                readErr: StoreError, validator: Doc -> Validation,
                                replaceOne: (ObjectId, Doc) -> Result<bool, StoreError>)
    requires IsJsonContentType(contentType)
    ensures ListItemUpdate(
        _ => Success(entity), id, Request(contentType, Some(patch)),
        (i: ObjectId, e: Doc, u: Doc) => RecordHelpers.SimulatedUpdateAsWritten(i, e, u, RecordHelpers.ScratchOutcomes(None, None, Some(readErr), None)),
        validator, replaceOne)
      == Handled(Respond(ErrorResponse(UnexpectedFormat)), [])
    ensures ListItemUpdate(
        _ => Success(entity), id, Request(contentType, Some(patch)),
        (i: ObjectId, e: Doc, u: Doc) => RecordHelpers.SimulatedUpdate(i, e, u, RecordHelpers.ScratchOutcomes(None, None, Some(readErr), None)),
        validator, replaceOne)
      == Handled(Respond(ErrorResponse(InternalError)), [])
  {
  }

  /** A replacement identical to the stored record modifies nothing, so the
      driver reports no modification and the PUT answers not found. */
  lemma NoOpReplaceIsNotFound(req: Request, validator: Doc -> Validation, id: ObjectId, filter: Doc, softDelete: bool)
    requires ReadBody(req, Some(validator)).BodyOk?
    ensures ListItemReplace(req, validator, (i: ObjectId, d: Doc) => RecordHelpers.ReplaceOne(filter, softDelete, i, d, Success(0)).result, id).reply
         == Respond(ErrorResponse(NotFound))
  {
  }

  /** A single violation on field `field` of model `model` (a namespace
      such as `Payment.amount`) answers 400 with the single message
      `field: tag`, e.g. `amount: gt`. */
  lemma SingleViolationMessage(model: string, field: string, tag: string)
    requires '.' !in model
    ensures Validate(Invalid([Violation(model + "." + field, tag)]))
         == Rejected(Respond(Response(400, CodeErrorsBody("format:invalid", [field + ": " + tag]))))
  {
    var v := Violation(model + "." + field, tag);
    SplitFirstDotOf(model, field);
    assert Message(v) == field + ": " + tag;
    var m := Messages([v]);
    assert m.Some? && |m.value| == 1 && m.value[0] == Message(v);
    assert m.value == [field + ": " + tag];
  }

  /** A query parameter as the binder sees it. */
  datatype QueryParam = Absent | Given(n: int) | Malformed

  /** The binding of a parameter fails when it is present but is not an
      `int64`. */
  predicate BindFails(p: QueryParam) {
    p.Malformed? || (p.Given? && !InInt64(p.n))
  }

  /** The value a parameter binds to: a given `int64` replaces the default;
      an absent or failing one leaves it, the binding error being ignored. */
  function BindParam(p: QueryParam, default: int): (v: int)
    ensures p.Given? && InInt64(p.n) ==> v == p.n
    ensures !(p.Given? && InInt64(p.n)) ==> v == default
  {
    if p.Given? && InInt64(p.n) then p.n else default
  }

  /** The arguments `listGet` passes to `getMany`, and its response. */
  datatype ListCall = ListCall(page: int, pageSize: int, response: Response)

  /** `listGet`: skip defaults to 0 and limit to the default limit; the
      `skip` parameter is passed as the page number and `limit` as the page
      size. The query binder stops at its first failure, so a `skip` that
      does not bind leaves `limit` at its default too. */
  function ListGet(skip: QueryParam, limit: QueryParam, defaultLimit: int,
                   getMany: (int, int) -> Result<nat, StoreError>): (r: ListCall)
    requires InInt64(defaultLimit)
    ensures InInt64(r.page) && InInt64(r.pageSize)
    ensures r.page == BindParam(skip, 0)
    ensures !BindFails(skip) ==> r.pageSize == BindParam(limit, defaultLimit)
    ensures BindFails(skip) ==> r.pageSize == defaultLimit
    ensures getMany(r.page, r.pageSize).Success? ==>
      r.response == Response(200, EntriesBody(getMany(r.page, r.pageSize).value))
    ensures getMany(r.page, r.pageSize).Failure? ==> r.response == ErrorResponse(InternalError)
  {
    var page := BindParam(skip, 0);
    var pageSize := if BindFails(skip) then defaultLimit else BindParam(limit, defaultLimit);
    match getMany(page, pageSize)
    case Success(n) => ListCall(page, pageSize, Response(200, EntriesBody(n)))
    case Failure(_) => ListCall(page, pageSize, ErrorResponse(InternalError))
  }

  /** With `getMany` bound to the record operation, `?skip=s&limit=l` skips
      `s * l` documents, not `s`: the parameter counts pages. */
  lemma ListSkipCountsPages(s: int, l: int, defaultLimit: int, filter: Doc, softDelete: bool, outcome: RecordHelpers.FindOutcome)
    requires InInt64(defaultLimit) && 0 < s && 0 < l && s * l <= Int64Max
    ensures var call := ListGet(Given(s), Given(l), defaultLimit,
                                (p, z) => if InInt64(p) && InInt64(z)
                                          then RecordHelpers.GetMany(filter, softDelete, p, z, outcome).result
                                          else Failure(Failed("out of range")));
      RecordHelpers.GetMany(filter, softDelete, call.page, call.pageSize, outcome).options
        == RecordHelpers.FindOptions(Some(l), Some(s * l))
  {
  }


  /** The outcome of custom-method dispatch: not found, or one invocation of
      the handler with the method name without its sigil, the static filter
      and, for item methods, the id. */
  datatype Dispatch = NoMethod(response: Response) | Invoke(name: string, filter: Doc, id: Option<ObjectId>)

  const MethodSigil: string := "~"

  /** The method entry a sigil-prefixed name selects, when it exists, has a
      handler and has the required type. */
  predicate Selects(name: string, methods: map<string, MethodEntry>, required: MethodType) {
    && StartsWith(name, MethodSigil)
    && name[1..] in methods
    && methods[name[1..]].hasHandler
    && methods[name[1..]].kind == required
  }

  /** `resourceMethod` */
  function ResourceMethod(name: string, methods: map<string, MethodEntry>, required: MethodType, filter: Doc)
    : (r: Dispatch)
    ensures r.Invoke? <==> Selects(name, methods, required)
    ensures r.Invoke? ==> r == Invoke(name[1..], filter, None)
    ensures r.NoMethod? ==> r.response == ErrorResponse(NotFound)
  {
    if !StartsWith(name, MethodSigil) then NoMethod(ErrorResponse(NotFound))
    else
      var m := name[1..];
      if m !in methods || !methods[m].hasHandler || methods[m].kind != required then NoMethod(ErrorResponse(NotFound))
      else Invoke(m, filter, None)
  }

  /** `itemMethod` */
  function ItemMethod(name: string, methods: map<string, MethodEntry>, required: MethodType, filter: Doc, id: ObjectId)
    : (r: Dispatch)
    ensures r.Invoke? <==> Selects(name, methods, required)
    ensures r.Invoke? ==> r == Invoke(name[1..], filter, Some(id))
    ensures r.NoMethod? ==> r.response == ErrorResponse(NotFound)
  {
    if !StartsWith(name, MethodSigil) then NoMethod(ErrorResponse(NotFound))
    else
      var m := name[1..];
      if m !in methods || !methods[m].hasHandler || methods[m].kind != required then NoMethod(ErrorResponse(NotFound))
      else Invoke(m, filter, Some(id))
  }

  /** A declared method is reached through its sigil-prefixed name on the
      route of its own type, and only there. */
  lemma MethodReachedByItsSigilName(m: string, methods: map<string, MethodEntry>, required: MethodType, filter: Doc)
    requires m in methods && methods[m].hasHandler
    ensures ResourceMethod(MethodSigil + m, methods, required, filter).Invoke?
        <==> methods[m].kind == required
    ensures methods[m].kind == required ==>
      ResourceMethod(MethodSigil + m, methods, required, filter) == Invoke(m, filter, None)
    ensures ResourceMethod(m, methods, required, filter).Invoke? ==> StartsWith(m, MethodSigil)
  {
  }


  /** How a custom method's handler ends: it returns (having written its own
      reply), or it panics. */
  datatype MethodRun = Returned | HandlerPanicked

  /** The reply of `resourceMethod` / `itemMethod` as written. The deferred
      recovery logs `err.Error()`, but `err` is the still-nil named result
      while the handler is panicking, so the recovery itself panics and the
      internal-error response is never written. */
  function MethodReplyAsWritten(d: Dispatch, run: MethodRun): (r: Reply)
    ensures d.NoMethod? ==> r == Respond(d.response)
    ensures d.Invoke? && run == Returned ==> r == HandledBy(d.name)
    ensures d.Invoke? && run == HandlerPanicked ==> r == Panicked
  {
    match d
    case NoMethod(resp) => Respond(resp)
    case Invoke(name, _, _) => if run == HandlerPanicked then Panicked else HandledBy(name)
  }

  /** The reply with the recovery doing what it is there for: a panicking
      method answers an internal error. */
  function MethodReply(d: Dispatch, run: MethodRun): (r: Reply)
    ensures r != Panicked
    ensures d.NoMethod? ==> r == Respond(d.response)
    ensures d.Invoke? ==> (r == HandledBy(d.name) <==> run.Returned?)
    ensures d.Invoke? && run == HandlerPanicked ==> r == Respond(ErrorResponse(InternalError))
  {
    match d
    case NoMethod(resp) => Respond(resp)
    case Invoke(name, _, _) =>
      if run.HandlerPanicked? then Respond(ErrorResponse(InternalError)) else HandledBy(name)
  }

  /** The two agree except on a panicking method, where the written
      recovery panics again and the intended one answers 500. */
  lemma PanickingMethodEscapesRecovery(name: string, methods: map<string, MethodEntry>, required: MethodType, filter: Doc)
    requires Selects(name, methods, required)
    ensures var d := ResourceMethod(name, methods, required, filter);
      && MethodReplyAsWritten(d, HandlerPanicked) == Panicked
      && MethodReply(d, HandlerPanicked) == Respond(ErrorResponse(InternalError))
      && MethodReply(d, HandlerPanicked).response.status == 500
      && MethodReplyAsWritten(d, Returned) == MethodReply(d, Returned)
  {
  }
}

=== FILE: json_body.dfy ===
/** The request-body gate of core/requests/json_body.go: content type, bind,
    then (optionally) validation. Binding and the validator are external:
    the bind outcome and the validator's verdict are parameters. */
module JsonBody {
  import opened Base
  import opened Documents
  import opened Responses

  /** What the validator says of a bound value: no error, a list of field
      violations (`validator.ValidationErrors`), or some other error (the
      value was not a struct it can inspect). */
  datatype Validation = Valid | Invalid(violations: seq<Violation>) | NotStruct

  /** The outcome of reading a body: the bound document, a rejection already
      written as a response, or a panic. */
  datatype BodyResult = BodyOk(doc: Doc) | BodyRejected(response: Response) | BodyPanic

  /** The content type announces JSON, compared case-insensitively. */
  predicate IsJsonContentType(contentType: string) {
    Contains(ToLower(contentType), "application/json")
  }

  /** `ReadJSONBody`. A nil target panics; a content type without
      `application/json` is rejected before any bind; a failed bind
      (`bound == None`) is rejected too; with a validator, its violations
      become `InvalidFormat` (and a non-`ValidationErrors` error fails the
      type assertion, a panic). The body is accepted only after every
      check has passed. `bound` is what the bind leaves in a target that
      is a pointer to a record. */
  function ReadJSONBody(contentType: string, targetIsNil: bool, bound: Option<Doc>, validator: Option<Doc -> Validation>)
    : (r: BodyResult)
    ensures targetIsNil ==> r == BodyPanic
    ensures !targetIsNil && !IsJsonContentType(contentType) ==> r == BodyRejected(ErrorResponse(UnexpectedFormat))
    ensures !targetIsNil && IsJsonContentType(contentType) && bound.None? ==>
      r == BodyRejected(ErrorResponse(UnexpectedFormat))
    ensures r.BodyOk? <==>
      && !targetIsNil && IsJsonContentType(contentType) && bound.Some?
      && (validator.Some? ==> validator.value(bound.value) == Valid)
    ensures r.BodyOk? ==> r.doc == bound.value
    ensures !targetIsNil && IsJsonContentType(contentType) && bound.Some? && validator.Some? ==>
      match validator.value(bound.value)
      case Valid => r == BodyOk(bound.value)
      case Invalid(vs) => (r == BodyPanic <==> InvalidFormat(vs).None?)
                          && (r != BodyPanic ==> r == BodyRejected(InvalidFormat(vs).value))
      case NotStruct => r == BodyPanic
  {
    if targetIsNil then BodyPanic
    else if !IsJsonContentType(contentType) then BodyRejected(ErrorResponse(UnexpectedFormat))
    else if bound.None? then BodyRejected(ErrorResponse(UnexpectedFormat))
    else if validator.None? then BodyOk(bound.value)
    else
      match validator.value(bound.value)
      case Valid => BodyOk(bound.value)
      case Invalid(vs) =>
        (match InvalidFormat(vs)
         case None => BodyPanic
         case Some(resp) => BodyRejected(resp))
      case NotStruct => BodyPanic
  }

  /** The content-type test ignores letter case. */
  lemma JsonContentTypeIgnoresCase()
    ensures IsJsonContentType("Application/JSON; charset=utf-8")
  {
    var lowered := ToLower("Application/JSON; charset=utf-8");
    assert lowered[..16] == "application/json";
    assert OccursAt(lowered, "application/json", 0);
  }
}

=== FILE: object_ids.dfy ===
/** Document identities as the MongoDB driver represents them: twelve bytes,
    written at the HTTP boundary as 24 hexadecimal characters. */
module ObjectIds {
  import opened Base

  type Byte = b: int | 0 <= b < 256

  type ObjectId = s: seq<Byte> | |s| == 12 witness [0, 0, 0, 0, 0, 0, 0, 0, 0, 0, 0, 0]

  /** The driver's `NilObjectID`. */
  const NilObjectId: ObjectId := [0, 0, 0, 0, 0, 0, 0, 0, 0, 0, 0, 0]

  /** `ObjectID.IsZero`: the id equals the nil id. */
  predicate IsZero(id: ObjectId) {
    id == NilObjectId
  }

  /** Value of one hexadecimal digit, either case. */
  function HexValue(c: char): (r: Option<nat>)
    ensures r.Some? ==> r.value < 16
  {
    if '0' <= c <= '9' then Some(c as int - '0' as int)
    else if 'a' <= c <= 'f' then Some(c as int - 'a' as int + 10)
    else if 'A' <= c <= 'F' then Some(c as int - 'A' as int + 10)
    else None
  }

  predicate IsHexDigit(c: char) {
    HexValue(c).Some?
  }

  /** The digit for a value below 16, in lower or upper case. */
  function HexChar(n: nat, upper: bool): (c: char)
    requires n < 16
    ensures HexValue(c) == Some(n)
    ensures n >= 10 && !upper ==> 'a' <= c <= 'f'
    ensures n >= 10 && upper ==> 'A' <= c <= 'F'
  {
    if n < 10 then ('0' as int + n) as char
    else if upper then ('A' as int + n - 10) as char
    else ('a' as int + n - 10) as char
  }

  /** `hex.DecodeString` on an even-length input. */
  function DecodeHex(s: string): (r: Option<seq<Byte>>)
    requires |s| % 2 == 0
    ensures r.Some? <==> forall i | 0 <= i < |s| :: IsHexDigit(s[i])
    ensures r.Some? ==> 2 * |r.value| == |s|
    decreases |s|
  {
    if |s| == 0 then Some([])
    else
      var hi := HexValue(s[0]);
      var lo := HexValue(s[1]);
      var rest := DecodeHex(s[2..]);
      if hi.None? || lo.None? || rest.None? then
        assert hi.None? ==> !IsHexDigit(s[0]);
        assert lo.None? ==> !IsHexDigit(s[1]);
        assert rest.None? ==> exists i | 0 <= i < |s| - 2 :: !IsHexDigit(s[2..][i]);
        None
      else
        Some([hi.value * 16 + lo.value] + rest.value)
  }

  /** `hex.EncodeToString`: two lower-case digits per byte. */
  function EncodeHex(b: seq<Byte>): (s: string)
    ensures |s| == 2 * |b|
  {
    if |b| == 0 then "" else [HexChar(b[0] / 16, false), HexChar(b[0] % 16, false)] + EncodeHex(b[1..])
  }

  /** The UTF-8 encoding of one character (section 3 of RFC 3629): one byte
      below 0x80, otherwise a lead byte from 0xC0 up followed by
      continuation bytes from 0x80 to 0xBF. */
  function Utf8(c: char): (b: seq<Byte>)
    ensures 1 <= |b| <= 4
    ensures |b| == 1 <==> c as int < 0x80
    ensures |b| == 1 ==> b[0] == c as int
    ensures |b| > 1 ==> b[0] >= 0xC0 && forall i | 1 <= i < |b| :: 0x80 <= b[i] < 0xC0
  {
    var n := c as int;
    if n < 0x80 then [n]
    else if n < 0x800 then [0xC0 + n / 64, 0x80 + n % 64]
    else if n < 0x10000 then [0xE0 + n / 4096, 0x80 + n / 64 % 64, 0x80 + n % 64]
    else [0xF0 + n / 262144, 0x80 + n / 4096 % 64, 0x80 + n / 64 % 64, 0x80 + n % 64]
  }

  /** `[]byte(s)`: the bytes Go stores for a string; `len(s)` counts them.
      There are more bytes than characters exactly when some character is
      outside ASCII. */
  function Utf8Bytes(s: string): (b: seq<Byte>)
    ensures |b| >= |s|
    ensures (exists i | 0 <= i < |s| :: s[i] as int >= 0x80) ==> |b| > |s|
  {
    if |s| == 0 then []
    else
      var rest := Utf8Bytes(s[1..]);
      assert (exists i | 0 <= i < |s| :: s[i] as int >= 0x80) ==>
        s[0] as int >= 0x80 || exists i | 0 <= i < |s[1..]| :: s[1..][i] as int >= 0x80;
      Utf8(s[0]) + rest
  }

  /** An ASCII string is stored one byte per character, each byte being
      the character's code. */
  lemma {:induction false} AsciiEncodesAsItself(s: string)
    requires forall i | 0 <= i < |s| :: s[i] as int < 0x80
    ensures |Utf8Bytes(s)| == |s|
    ensures forall i | 0 <= i < |s| :: Utf8Bytes(s)[i] == s[i] as int
  {
    if |s| > 0 {
      AsciiEncodesAsItself(s[1..]);
      assert Utf8Bytes(s) == [s[0] as int] + Utf8Bytes(s[1..]);
    }
  }

  /** Conversely, bytes that are all ASCII come from an ASCII string of the
      same length, one character per byte. */
  lemma {:induction false} AsciiBytesDecode(s: string)
    requires forall i | 0 <= i < |Utf8Bytes(s)| :: Utf8Bytes(s)[i] < 0x80
    ensures |Utf8Bytes(s)| == |s|
    ensures forall i | 0 <= i < |s| :: Utf8Bytes(s)[i] == s[i] as int
  {
    if |s| > 0 {
      var head := Utf8(s[0]);
      var rest := Utf8Bytes(s[1..]);
      assert Utf8Bytes(s) == head + rest;
      assert head[0] == Utf8Bytes(s)[0];
      forall i | 0 <= i < |rest|
        ensures rest[i] < 0x80
      {
        assert rest[i] == Utf8Bytes(s)[|head| + i];
      }
      AsciiBytesDecode(s[1..]);
    }
  }

  /** A byte the hex decoder accepts: the code of a hexadecimal digit. */
  predicate IsHexByte(b: Byte) {
    b < 0x80 && IsHexDigit(b as char)
  }

  /** A string whose bytes are all hexadecimal digits is a string of as
      many hexadecimal-digit characters. */
  lemma HexBytesAreHexDigits(s: string)
    ensures (forall i | 0 <= i < |Utf8Bytes(s)| :: IsHexByte(Utf8Bytes(s)[i])) ==>
      |Utf8Bytes(s)| == |s| && forall i | 0 <= i < |s| :: IsHexDigit(s[i])
  {
    var bytes := Utf8Bytes(s);
    if forall i | 0 <= i < |bytes| :: IsHexByte(bytes[i]) {
      AsciiBytesDecode(s);
      forall i | 0 <= i < |s|
        ensures IsHexDigit(s[i])
      {
        assert s[i] == bytes[i] as char;
      }
    }
  }

  /** `primitive.ObjectIDFromHex`: exactly 24 hexadecimal digits, either case. */
  function FromHex(s: string): (r: Option<ObjectId>)
    ensures r.Some? <==> |s| == 24 && forall i | 0 <= i < |s| :: IsHexDigit(s[i])
  {
    if |s| != 24 then None
    else match DecodeHex(s)
      case None => None
      case Some(b) => Some(b)
  }

  /** `ObjectID.Hex` */
  function Hex(id: ObjectId): (s: string)
    ensures |s| == 24
  {
    EncodeHex(id)
  }

  lemma {:induction false} DecodeEncode(b: seq<Byte>)
    ensures DecodeHex(EncodeHex(b)) == Some(b)
  {
    if |b| > 0 {
      var s := EncodeHex(b);
      assert s[2..] == EncodeHex(b[1..]);
      DecodeEncode(b[1..]);
      assert b == [b[0] / 16 * 16 + b[0] % 16] + b[1..];
    }
  }

  /** Parsing succeeds exactly when Go's byte-wise reading succeeds: 24
      bytes, each a hexadecimal digit. */
  lemma FromHexReadsBytes(s: string)
    ensures FromHex(s).Some? <==>
      |Utf8Bytes(s)| == 24 && forall i | 0 <= i < |Utf8Bytes(s)| :: IsHexByte(Utf8Bytes(s)[i])
  {
    HexBytesAreHexDigits(s);
    if FromHex(s).Some? {
      forall i | 0 <= i < |s|
        ensures s[i] as int < 0x80
      {
        assert IsHexDigit(s[i]);
      }
      AsciiEncodesAsItself(s);
      forall i | 0 <= i < |s|
        ensures IsHexByte(Utf8Bytes(s)[i])
      {
        assert Utf8Bytes(s)[i] as char == s[i];
      }
    }
  }

  /** Every id survives printing and parsing back. */
  lemma HexRoundTrip(id: ObjectId)
    ensures FromHex(Hex(id)) == Some(id)
  {
    DecodeEncode(id);
  }
}

=== FILE: record_helpers.dfy ===
/** The record operations of app/record_helpers.go (ObjectID revision): the
    filter composer `setId`, the paging options and the result flags of the
    operation factories, and the simulated update on the scratch collection.
    Driver calls appear as their outcomes, passed in as parameters. */
module RecordHelpers {
  import opened Base
  import opened ObjectIds
  import opened Documents

  /** The clause `{"$ne": true}` that excludes soft-deleted documents. */
  const NotTrue: Value := Object(map["$ne" := Bool(true)])

  /** The identity part of a filter: `_id` set to the id, plus the
      soft-delete exclusion when asked for; every other static entry kept. */
  function WithIdentity(filter: Doc, id: ObjectId, softDelete: bool): (r: Doc)
    ensures r.Keys == filter.Keys + {IdField} + (if softDelete then {DeletedField} else {})
    ensures r[IdField] == Id(id)
    ensures softDelete ==> r[DeletedField] == NotTrue
    ensures forall k | k in filter && k != IdField && (k != DeletedField || !softDelete) :: r[k] == filter[k]
  {
    var withId := filter[IdField := Id(id)];
    if softDelete then withId[DeletedField := NotTrue] else withId
  }

  /** `setId`: a fresh filter built from the static filter; with the nil id
      it is exactly a copy of it (no `_id`, no soft-delete clause, even when
      soft delete is on). This revision never fails. */
  function SetId(filter: Doc, id: ObjectId, softDelete: bool): (r: Result<Doc, StoreError>)
    ensures r.Success?
    ensures IsZero(id) ==> r.value == filter
    ensures !IsZero(id) ==> r.value == WithIdentity(filter, id, softDelete)
  {
    if IsZero(id) then Success(filter) else Success(WithIdentity(filter, id, softDelete))
  }

  /** For a non-nil id the filter pins `_id`, carries `_deleted` excluded
      exactly when soft delete is on (unless the static filter already has
      its own `_deleted`), and keeps every other static entry. */
  lemma SetIdSoftDeleteSplit(filter: Doc, id: ObjectId, softDelete: bool)
    requires !IsZero(id)
    ensures var f := SetId(filter, id, softDelete).value;
      && f[IdField] == Id(id)
      && (softDelete ==> f[DeletedField] == NotTrue)
      && (!softDelete ==> (DeletedField in f <==> DeletedField in filter))
      && (forall k | k in filter && k != IdField && k != DeletedField :: k in f && f[k] == filter[k])
  {
  }

  /** `options.Find()` paging options; `None` is an option left unset. */
  datatype FindOptions = FindOptions(limit: Option<int>, skip: Option<int>)

  /** The paging of `makeGetMany`: a positive page size becomes the limit,
      and only with a positive page as well is `page * pageSize` (in
      wrapping `int64` arithmetic) skipped. */
  function Paginate(page: int, pageSize: int): (o: FindOptions)
    requires InInt64(page) && InInt64(pageSize)
    ensures o.limit.Some? <==> pageSize > 0
    ensures o.limit.Some? ==> o.limit.value == pageSize
    ensures o.skip.Some? <==> pageSize > 0 && page > 0
    ensures o.skip.Some? ==> o.skip.value == WrapInt64(page * pageSize)
  {
    if pageSize > 0 then
      FindOptions(Some(pageSize), if page > 0 then Some(WrapInt64(page * pageSize)) else None)
    else FindOptions(None, None)
  }

  /** Without overflow the skip is a whole number of full pages. */
  lemma SkipIsWholePages(page: int, pageSize: int)
    requires InInt64(page) && InInt64(pageSize) && page > 0 && pageSize > 0
    requires page * pageSize <= Int64Max
    ensures Paginate(page, pageSize).skip == Some(page * pageSize)
    ensures Paginate(page, pageSize).skip.value >= pageSize
  {
  }

  /** The product is not guarded: page 2^62 of size 4 wraps to a skip of 0,
      the first page again. */
  lemma SkipWrapsAround()
    ensures Paginate(0x4000_0000_0000_0000, 4) == FindOptions(Some(4), Some(0))
  {
  }

  /** One step of the cursor loop: the element decoded, or the decode error. */
  datatype Decoded = DecodedOk(doc: Doc) | DecodeFailed(err: StoreError)

  /** What `collection.Find` answers: an error, or a cursor over entries. */
  datatype FindOutcome = FindFailed(err: StoreError) | Cursor(entries: seq<Decoded>)

  /** The cursor loop: stops at the first entry that fails to decode,
      otherwise yields one element per entry. */
  function DrainCursor(entries: seq<Decoded>): (r: Result<nat, StoreError>)
    ensures r.Success? <==> forall i | 0 <= i < |entries| :: entries[i].DecodedOk?
    ensures r.Success? ==> r.value == |entries|
    ensures r.Failure? ==> exists j | 0 <= j < |entries| ::
      && entries[j].DecodeFailed? && r.error == entries[j].err
      && forall i | 0 <= i < j :: entries[i].DecodedOk?
  {
    if |entries| == 0 then Success(0)
    else if entries[0].DecodeFailed? then Failure(entries[0].err)
    else
      assert forall i | 1 <= i < |entries| :: entries[i] == entries[1..][i - 1];
      match DrainCursor(entries[1..])
      case Success(n) => Success(n + 1)
      case Failure(e) =>
        assert exists j | 0 <= j < |entries[1..]| ::
          && entries[1..][j].DecodeFailed? && e == entries[1..][j].err
          && forall i | 0 <= i < j :: entries[1..][i].DecodedOk?;
        var j :| 0 <= j < |entries[1..]| &&
          entries[1..][j].DecodeFailed? && e == entries[1..][j].err
          && forall i | 0 <= i < j :: entries[1..][i].DecodedOk?;
        assert entries[j + 1].DecodeFailed? && forall i | 0 <= i < j + 1 :: entries[i].DecodedOk?;
        Failure(e)
  }

  /** The query `getMany` sends and what it returns. */
  datatype Listing = Listing(filter: Doc, options: FindOptions, result: Result<nat, StoreError>)

  /** `getMany`: always composed with the nil id, so a listing never carries
      the soft-delete exclusion; paging as in `Paginate`. */
  function GetMany(filter: Doc, softDelete: bool, page: int, pageSize: int, outcome: FindOutcome): (r: Listing)
    requires InInt64(page) && InInt64(pageSize)
    ensures r.filter == filter
    ensures r.options == Paginate(page, pageSize)
    ensures outcome.FindFailed? ==> r.result == Failure(outcome.err)
    ensures outcome.Cursor? ==> r.result == DrainCursor(outcome.entries)
  {
    var f := SetId(filter, NilObjectId, softDelete).value;
    var options := Paginate(page, pageSize);
    match outcome
    case FindFailed(e) => Listing(f, options, Failure(e))
    case Cursor(entries) => Listing(f, options, DrainCursor(entries))
  }

  /** A call on the real collection as the factories send it. */
  datatype Call =
    | InsertCall(doc: Doc)
    | FindOneCall(filter: Doc)
    | DeleteCall(filter: Doc)
    | UpdateCall(filter: Doc, update: Doc)
    | ReplaceCall(filter: Doc, replacement: Doc)

  /** A call and the flag it reports. */
  datatype Reported = Reported(call: Call, result: Result<bool, StoreError>)

  /** A driver count turned into the reported flag: true iff positive. */
  function Flag(outcome: Result<nat, StoreError>): (r: Result<bool, StoreError>)
    ensures r.Success? <==> outcome.Success?
    ensures r.Success? ==> (r.value <==> outcome.value > 0)
    ensures r.Failure? ==> r.error == outcome.error
  {
    match outcome
    case Success(n) => Success(n > 0)
    case Failure(e) => Failure(e)
  }

  /** `getOne`: a find-one under the composed filter. */
  function GetOne(filter: Doc, softDelete: bool, id: ObjectId, outcome: Result<Doc, StoreError>)
    : (r: (Call, Result<Doc, StoreError>))
    ensures r.0 == FindOneCall(SetId(filter, id, softDelete).value)
    ensures r.1 == outcome
  {
    (FindOneCall(SetId(filter, id, softDelete).value), outcome)
  }

  /** `deleteOne`: reports true iff the driver's `DeletedCount` is
      positive. */
  function DeleteOne(filter: Doc, softDelete: bool, id: ObjectId, deletedCount: Result<nat, StoreError>)
    : (r: Reported)
    ensures r.call == DeleteCall(SetId(filter, id, softDelete).value)
    ensures r.result == Flag(deletedCount)
  {
    Reported(DeleteCall(SetId(filter, id, softDelete).value), Flag(deletedCount))
  }

  /** The update document: the patch wrapped as `{"$set": updates}`. */
  function SetUpdate(updates: Doc): (u: Doc)
    ensures u.Keys == {"$set"} && u["$set"] == Object(updates)
  {
    map["$set" := Object(updates)]
  }

  /** `updateOne`: a `$set` of the patch; reports true iff `ModifiedCount`
      is positive. */
  function UpdateOne(filter: Doc, softDelete: bool, id: ObjectId, updates: Doc, modifiedCount: Result<nat, StoreError>)
    : (r: Reported)
    ensures r.call == UpdateCall(SetId(filter, id, softDelete).value, SetUpdate(updates))
    ensures r.result == Flag(modifiedCount)
  {
    Reported(UpdateCall(SetId(filter, id, softDelete).value, SetUpdate(updates)), Flag(modifiedCount))
  }

  /** `replaceOne`: reports true iff `ModifiedCount` is positive, so a
      replace that matched but changed nothing reports false. */
  function ReplaceOne(filter: Doc, softDelete: bool, id: ObjectId, replacement: Doc, modifiedCount: Result<nat, StoreError>)
    : (r: Reported)
    ensures r.call == ReplaceCall(SetId(filter, id, softDelete).value, replacement)
    ensures r.result == Flag(modifiedCount)
  {
    Reported(ReplaceCall(SetId(filter, id, softDelete).value, replacement), Flag(modifiedCount))
  }

  /** Identity-scoped writes on a soft-delete resource never reach a
      document flagged deleted: their filter carries the exclusion. */
  lemma IdentityWritesExcludeDeleted(filter: Doc, id: ObjectId, replacement: Doc, updates: Doc, n: Result<nat, StoreError>)
    requires !IsZero(id)
    ensures DeleteOne(filter, true, id, n).call.filter[DeletedField] == NotTrue
    ensures UpdateOne(filter, true, id, updates, n).call.filter[DeletedField] == NotTrue
    ensures ReplaceOne(filter, true, id, replacement, n).call.filter[DeletedField] == NotTrue
  {
  }

  /** The `$set` merge on flat keys: the patch's keys take the patch's values,
      every other key keeps its value. */
  function ApplySet(doc: Doc, updates: Doc): (r: Doc)
    ensures r.Keys == doc.Keys + updates.Keys
    ensures forall k | k in updates :: r[k] == updates[k]
    ensures forall k | k in doc && k !in updates :: r[k] == doc[k]
  {
    doc + updates
  }

  /** The outcomes of the four scratch-collection steps: the upsert, the
      `$set`, the read back, and the decode of the result (to a map, back to
      BSON and into the model type, taken as one step). */
  datatype ScratchOutcomes = ScratchOutcomes(
    upsert: Option<StoreError>,
    update: Option<StoreError>,
    read: Option<StoreError>,
    decode: Option<StoreError>)

  /** `simulatedUpdate` as written: the entity is upserted into the scratch
      collection under its id, the patch is `$set` on it, and the result is
      read back with `_id` removed. A failed read back returns neither a
      value nor an error, since the error returned there is the outer
      variable of the previous step, which is nil. */
  function SimulatedUpdateAsWritten(entityId: ObjectId, entity: Doc, updates: Doc, scratch: ScratchOutcomes)
    : (r: Result<Option<Doc>, StoreError>)
    ensures scratch.upsert.Some? ==> r == Failure(scratch.upsert.value)
    ensures scratch.upsert.None? && scratch.update.Some? ==> r == Failure(scratch.update.value)
    ensures scratch.upsert.None? && scratch.update.None? && scratch.read.Some? ==> r == Success(None)
    ensures scratch.upsert.None? && scratch.update.None? && scratch.read.None? && scratch.decode.Some? ==>
      r == Failure(scratch.decode.value)
    ensures r.Success? && r.value.Some? ==>
      var d := r.value.value;
      && d.Keys == (entity.Keys + updates.Keys) - {IdField}
      && (forall k | k in updates && k != IdField :: d[k] == updates[k])
      && (forall k | k in entity && k !in updates && k != IdField :: d[k] == entity[k])
  {
    var stored := entity[IdField := Id(entityId)];
    if scratch.upsert.Some? then Failure(scratch.upsert.value)
    else if scratch.update.Some? then Failure(scratch.update.value)
    else if scratch.read.Some? then Success(None)
    else
      var merged := ApplySet(stored, updates);
      if scratch.decode.Some? then Failure(scratch.decode.value)
      else Success(Some(merged - {IdField}))
  }

  /** `simulatedUpdate` returning the read-back error, as every other step
      does: a preview is produced exactly when every scratch step succeeds. */
  function SimulatedUpdate(entityId: ObjectId, entity: Doc, updates: Doc, scratch: ScratchOutcomes)
    : (r: Result<Option<Doc>, StoreError>)
    ensures r.Success? <==> scratch == ScratchOutcomes(None, None, None, None)
    ensures r.Success? ==> r.value.Some?
    ensures scratch.upsert.Some? ==> r == Failure(scratch.upsert.value)
    ensures scratch.upsert.None? && scratch.update.Some? ==> r == Failure(scratch.update.value)
    ensures scratch.upsert.None? && scratch.update.None? && scratch.read.Some? ==> r == Failure(scratch.read.value)
    ensures scratch.upsert.None? && scratch.update.None? && scratch.read.None? && scratch.decode.Some? ==>
      r == Failure(scratch.decode.value)
    ensures r.Success? ==>
      var d := r.value.value;
      && d.Keys == (entity.Keys + updates.Keys) - {IdField}
      && (forall k | k in updates && k != IdField :: d[k] == updates[k])
      && (forall k | k in entity && k !in updates && k != IdField :: d[k] == entity[k])
  {
    if scratch.read.Some? && scratch.upsert.None? && scratch.update.None? then Failure(scratch.read.value)
    else SimulatedUpdateAsWritten(entityId, entity, updates, scratch)
  }

  /** When every scratch step succeeds both readings give the entity
      overridden by the patch, without `_id`. */
  lemma SimulatedUpdateIsMerge(entityId: ObjectId, entity: Doc, updates: Doc)
    ensures SimulatedUpdate(entityId, entity, updates, ScratchOutcomes(None, None, None, None))
      == Success(Some((entity + updates) - {IdField}))
    ensures SimulatedUpdateAsWritten(entityId, entity, updates, ScratchOutcomes(None, None, None, None))
      == Success(Some((entity + updates) - {IdField}))
  {
    var stored := entity[IdField := Id(entityId)];
    assert (stored + updates) - {IdField} == (entity + updates) - {IdField};
  }

  /** A failed read back is swallowed as written: no preview and no error,
      where the corrected operation reports the read error. */
  lemma ReadBackErrorSwallowed(entityId: ObjectId, entity: Doc, updates: Doc, e: StoreError)
    ensures SimulatedUpdateAsWritten(entityId, entity, updates, ScratchOutcomes(None, None, Some(e), None)) == Success(None)
    ensures SimulatedUpdate(entityId, entity, updates, ScratchOutcomes(None, None, Some(e), None)) == Failure(e)
  {
  }
}

=== FILE: resources.dfy ===
/** The resource descriptor of core/dsl/resources.go: resource types, the
    verb enumeration, the verb check and the well-formedness constraints
    carried by the descriptor's validation tags. */
module Resources {
  import opened Base
  import opened Documents

  /** `ResourceType` is an unsigned integer: 0 is a list, 1 a simple
      (single-document) resource; other values are representable and are
      rejected by the `min=0,max=1` tag. */
  const ListResource: nat := 0
  const SimpleResource: nat := 1

  /** `ResourceVerb` is an unsigned integer as well. */
  const ListVerb: nat := 0
  const CreateVerb: nat := 1
  const ReadVerb: nat := 2
  const ReplaceVerb: nat := 3
  const UpdateVerb: nat := 4
  const DeleteVerb: nat := 5
  const LastVerb: nat := DeleteVerb

  /** `MethodType` of a custom method: a View is bound to GET, an
      Operation to POST. */
  datatype MethodType = View | Operation

  /** A custom method entry; the handler itself is user code, so only
      whether it is present (non-nil) is kept. */
  datatype MethodEntry = MethodEntry(kind: MethodType, hasHandler: bool)

  /** `dsl.Index` */
  datatype Index = Index(unique: bool, fields: seq<string>)

  /** `dsl.Resource`. Optional fields are `None` when nil in Go. */
  datatype Resource = Resource(
    db: string,
    collection: string,
    kind: nat,
    filter: Doc,
    itemProjection: Option<Doc>,
    methods: map<string, MethodEntry>,
    itemMethods: Option<map<string, MethodEntry>>,
    hasModelType: bool,
    verbs: seq<nat>,
    softDelete: bool,
    listMaxResults: nat,
    indexes: map<string, Index>)

  /** Whether one verb may appear on a resource of the given type. */
  predicate VerbAllowed(kind: nat, verb: nat) {
    && !(kind == ListResource && verb > 5)
    && !(kind == SimpleResource && (verb == ListVerb || verb > LastVerb))
  }

  predicate VerbsValid(kind: nat, verbs: seq<nat>) {
    forall i | 0 <= i < |verbs| :: VerbAllowed(kind, verbs[i])
  }

  /** `ValidateVerbs`: scans the verbs and rejects at the first one the
      resource type does not allow. A list resource accepts verbs 0..5, a
      simple one 1..5, any other type accepts everything. */
  method ValidateVerbs(kind: nat, verbs: seq<nat>) returns (ok: bool)
    ensures ok <==> VerbsValid(kind, verbs)
    ensures kind == ListResource ==> (!ok <==> exists i | 0 <= i < |verbs| :: verbs[i] > 5)
    ensures kind == SimpleResource ==>
      (!ok <==> exists i | 0 <= i < |verbs| :: verbs[i] == ListVerb || verbs[i] > LastVerb)
    ensures kind != ListResource && kind != SimpleResource ==> ok
    ensures |verbs| == 0 ==> ok
  {
    var i := 0;
    while i < |verbs|
      invariant 0 <= i <= |verbs|
      invariant forall j | 0 <= j < i :: VerbAllowed(kind, verbs[j])
    {
      var verb := verbs[i];
      if kind == ListResource && verb > 5 {
        return false;
      }
      if kind == SimpleResource && (verb == ListVerb || verb > LastVerb) {
        return false;
      }
      i := i + 1;
    }
    return true;
  }

  /** Validity is element-wise: it depends only on which verbs occur, not on
      their order or on repetitions. */
  lemma {:induction false} VerbsValidDependsOnlyOnElements(kind: nat, a: seq<nat>, b: seq<nat>)
    requires forall v :: v in a <==> v in b
    ensures VerbsValid(kind, a) <==> VerbsValid(kind, b)
  {
    if VerbsValid(kind, a) {
      forall j | 0 <= j < |b| ensures VerbAllowed(kind, b[j]) {
        assert b[j] in a;
        var i :| 0 <= i < |a| && a[i] == b[j];
      }
    }
    if VerbsValid(kind, b) {
      forall j | 0 <= j < |a| ensures VerbAllowed(kind, a[j]) {
        assert a[j] in b;
        var i :| 0 <= i < |b| && b[i] == a[j];
      }
    }
  }

  /** The structural validation tags of `Resource`: type in 0..1, a model
      type given, no item projection and no item methods on a simple
      resource, and valid verbs. */
  predicate WellFormed(r: Resource) {
    && r.kind <= 1
    && r.hasModelType
    && (r.kind == SimpleResource ==> r.itemProjection.None? && r.itemMethods.None?)
    && VerbsValid(r.kind, r.verbs)
  }

  /** A simple resource is well formed only if it leaves out the list verb
      and the item-level fields, whatever else it declares. */
  lemma SimpleResourceShape(r: Resource)
    requires WellFormed(r) && r.kind == SimpleResource
    ensures ListVerb !in r.verbs
    ensures forall v | v in r.verbs :: CreateVerb <= v <= LastVerb
    ensures r.itemProjection.None? && r.itemMethods.None?
  {
  }

}

=== FILE: responses.dfy ===
/** The response vocabulary of core/responses/main.go: a fixed table of
    (status, code) error responses, the success shapes, and the message
    builder for validation failures. */
module Responses {
  import opened Base
  import opened ObjectIds
  import opened Documents

  datatype Body =
    | CodeBody(code: string)
    | CodeErrorsBody(code: string, errors: seq<string>)
    | CreatedBody(id: ObjectId)
    | DataBody(data: Value)
    /** A listing of `count` entries (see `RecordHelpers.GetMany`). */
    | EntriesBody(count: nat)

  datatype Response = Response(status: int, body: Body)

  /** The helpers whose response is a fixed status and code. */
  datatype Fixed =
    | AuthMissing
    | AuthBadScheme
    | AuthSyntaxError
    | AuthNotFound
    | AuthForbidden
    | NotFound
    | MethodNotAllowed
    | InternalError
    | UnexpectedFormat
    | AlreadyExists
    | DuplicateKey

  predicate IsAuthorization(f: Fixed) {
    f.AuthMissing? || f.AuthBadScheme? || f.AuthSyntaxError? || f.AuthNotFound? || f.AuthForbidden?
  }

  function Code(f: Fixed): string {
    match f
    case AuthMissing => "authorization:missing-header"
    case AuthBadScheme => "authorization:bad-scheme"
    case AuthSyntaxError => "authorization:syntax-error"
    case AuthNotFound => "authorization:not-found"
    case AuthForbidden => "authorization:forbidden"
    case NotFound => "not-found"
    case MethodNotAllowed => "method-not-allowed"
    case InternalError => "internal-error"
    case UnexpectedFormat => "format:unexpected"
    case AlreadyExists => "already-exists"
    case DuplicateKey => "duplicate-key"
  }

  function Status(f: Fixed): int {
    match f
    case AuthMissing => 401
    case AuthBadScheme => 400
    case AuthSyntaxError => 400
    case AuthNotFound => 401
    case AuthForbidden => 403
    case NotFound => 404
    case MethodNotAllowed => 405
    case InternalError => 500
    case UnexpectedFormat => 400
    case AlreadyExists => 409
    case DuplicateKey => 409
  }

  /** Reads a fixed response back from its code, as a client branching on
      `code` does. */
  function KindOfCode(code: string): Option<Fixed> {
    if code == "authorization:missing-header" then Some(AuthMissing)
    else if code == "authorization:bad-scheme" then Some(AuthBadScheme)
    else if code == "authorization:syntax-error" then Some(AuthSyntaxError)
    else if code == "authorization:not-found" then Some(AuthNotFound)
    else if code == "authorization:forbidden" then Some(AuthForbidden)
    else if code == "not-found" then Some(NotFound)
    else if code == "method-not-allowed" then Some(MethodNotAllowed)
    else if code == "internal-error" then Some(InternalError)
    else if code == "format:unexpected" then Some(UnexpectedFormat)
    else if code == "already-exists" then Some(AlreadyExists)
    else if code == "duplicate-key" then Some(DuplicateKey)
    else None
  }

  /** The response a fixed helper writes. Its code identifies the helper, the
      authorization helpers are exactly those whose code lives in the
      `authorization:` namespace, and the status classes are as listed. */
  function ErrorResponse(f: Fixed): (r: Response)
    ensures r.body.CodeBody?
    ensures KindOfCode(r.body.code) == Some(f)
    ensures StartsWith(r.body.code, "authorization:") <==> IsAuthorization(f)
    ensures r.status == 400 <==> f.AuthBadScheme? || f.AuthSyntaxError? || f.UnexpectedFormat?
    ensures r.status == 401 <==> f.AuthMissing? || f.AuthNotFound?
    ensures r.status == 403 <==> f.AuthForbidden?
    ensures r.status == 404 <==> f.NotFound?
    ensures r.status == 405 <==> f.MethodNotAllowed?
    ensures r.status == 409 <==> f.AlreadyExists? || f.DuplicateKey?
    ensures r.status == 500 <==> f.InternalError?
  {
    CodeIdentifiesKind(f);
    AuthorizationNamespace(f);
    Response(Status(f), CodeBody(Code(f)))
  }

  /** The code names its helper: reading it back gives the helper. */
  lemma CodeIdentifiesKind(f: Fixed)
    ensures KindOfCode(Code(f)) == Some(f)
  {
  }

  /** Exactly the authorization helpers use the `authorization:` prefix. */
  lemma AuthorizationNamespace(f: Fixed)
    ensures StartsWith(Code(f), "authorization:") <==> IsAuthorization(f)
  {
    var c := Code(f);
    assert StartsWith(c, "authorization:") ==> c[0] == 'a' && c[1] == 'u';
  }

  /** Distinct helpers are told apart by their code alone. */
  lemma CodesAreDistinct(f: Fixed, g: Fixed)
    requires f != g
    ensures ErrorResponse(f).body.code != ErrorResponse(g).body.code
  {
  }

  /** `OkWith`: 200 with the given payload as the body. */
  function OkWith(v: Value): (r: Response)
    ensures r.status == 200 && r.body.DataBody? && r.body.data == v
  {
    Response(200, DataBody(v))
  }

  /** `Ok`: 200 with `{"code": "ok"}`, the one code not in the error table. */
  function Ok(): (r: Response)
    ensures r.status == 200 && r.body.CodeBody?
    ensures KindOfCode(r.body.code).None?
  {
    Response(200, CodeBody("ok"))
  }

  /** `Created`: 201 with a body holding only the new id. */
  function Created(id: ObjectId): (r: Response)
    ensures r.status == 201 && r.body == CreatedBody(id)
  {
    Response(201, CreatedBody(id))
  }

  /** One `validator.FieldError`: the field's namespace (`Type.Field...`)
      and the violated rule. */
  datatype Violation = Violation(namespace: string, tag: string)

  /** `strings.SplitN(s, ".", 2)`, when it yields two parts. */
  function SplitFirstDot(s: string): (r: Option<(string, string)>)
    ensures r.None? <==> '.' !in s
    ensures r.Some? ==> '.' !in r.value.0 && s == r.value.0 + "." + r.value.1
    decreases |s|
  {
    if |s| == 0 then None
    else if s[0] == '.' then
      assert s == "" + "." + s[1..];
      Some(("", s[1..]))
    else
      match SplitFirstDot(s[1..])
      case None => None
      case Some((h, t)) =>
        assert s == [s[0]] + s[1..];
        Some(([s[0]] + h, t))
  }

  /** The split is determined by the part before the first dot: splitting
      `h + "." + t` with a dot-free `h` gives back exactly `h` and `t`. */
  lemma {:induction false} SplitFirstDotOf(h: string, t: string)
    requires '.' !in h
    ensures SplitFirstDot(h + "." + t) == Some((h, t))
  {
    var s := h + "." + t;
    if |h| == 0 {
      assert s[0] == '.' && s[1..] == t;
    } else {
      assert s[0] == h[0] && s[1..] == h[1..] + "." + t;
      SplitFirstDotOf(h[1..], t);
      assert [h[0]] + h[1..] == h;
    }
  }

  /** The message for one violation: the namespace without its first
      segment, a colon and a space, and the tag. */
  function Message(v: Violation): string
    requires '.' in v.namespace
  {
    SplitFirstDot(v.namespace).value.1 + ": " + v.tag
  }

  /** The messages in input order; `None` when some namespace has no `.`,
      where `SplitN(...)[1]` indexes out of range and the helper panics. */
  function Messages(vs: seq<Violation>): (r: Option<seq<string>>)
    ensures r.Some? <==> forall i | 0 <= i < |vs| :: '.' in vs[i].namespace
    ensures r.Some? ==> |r.value| == |vs|
    ensures r.Some? ==> forall i | 0 <= i < |vs| :: r.value[i] == Message(vs[i])
  {
    if |vs| == 0 then Some([])
    else if '.' !in vs[0].namespace then None
    else
      match Messages(vs[1..])
      case None => None
      case Some(rest) => Some([Message(vs[0])] + rest)
  }

  /** `InvalidFormat`: 400 `format:invalid` with one message per violation,
      in order; `None` stands for the panic on a namespace without a `.`. */
  function InvalidFormat(vs: seq<Violation>): (r: Option<Response>)
    ensures r.Some? <==> forall i | 0 <= i < |vs| :: '.' in vs[i].namespace
    ensures r.Some? ==> r.value.status == 400 && r.value.body.CodeErrorsBody?
    ensures r.Some? ==> r.value.body.code == "format:invalid" && KindOfCode(r.value.body.code).None?
    ensures r.Some? ==> |r.value.body.errors| == |vs|
    ensures r.Some? ==> forall i | 0 <= i < |vs| :: r.value.body.errors[i] == Message(vs[i])
  {
    match Messages(vs)
    case None => None
    case Some(m) => Some(Response(400, CodeErrorsBody("format:invalid", m)))
  }

  /** A message loses exactly the first namespace segment: putting that
      segment and the dot back in front gives `namespace: tag`. */
  lemma MessageRecoversNamespace(v: Violation)
    requires '.' in v.namespace
    ensures var (head, _) := SplitFirstDot(v.namespace).value;
      '.' !in head && head + "." + Message(v) == v.namespace + ": " + v.tag
  {
  }


  /** `FindOneOperationError`: not-found for `ErrNoDocuments`, internal
      error for everything else. */
  function FindOneOperationError(e: StoreError): (r: Response)
    ensures r == ErrorResponse(NotFound) <==> e.NoDocuments?
    ensures r == ErrorResponse(InternalError) <==> !e.NoDocuments?
  {
    if e.NoDocuments? then ErrorResponse(NotFound) else ErrorResponse(InternalError)
  }
}

=== FILE: server.dfy ===
/** The index preparation and the status-rewriting middleware of
    app/main.go. Index creation itself is a driver call and is left to the
    caller; the model computes the index requests the server sends
    (`PrepareIndex`, as written) and the ones its marker convention means
    (`PrepareOrderedIndex`). */
module Server {
  import opened Base
  import opened Documents
  import opened Responses
  import opened Resources

  /** The index type a field's first character selects: `-` descending,
      `@` geospatial, `#` hashed, `~` text, anything else ascending. */
  function MarkerType(c: char): (v: Value)
    ensures v == Int(1) <==> c !in {'-', '@', '#', '~'}
    ensures c == '-' ==> v == Int(-1)
    ensures c == '@' ==> v == Str("2dsphere")
    ensures c == '#' ==> v == Str("hashed")
    ensures c == '~' ==> v == Str("text")
  {
    if c == '-' then Int(-1)
    else if c == '@' then Str("2dsphere")
    else if c == '#' then Str("hashed")
    else if c == '~' then Str("text")
    else Int(1)
  }

  predicate IsMarker(c: char) {
    c in {'-', '@', '#', '~'}
  }

  /** The keys document `prepareIndices` builds for one index, as written: a
      `bson.M` keyed by the whole field string, marker included, so the
      order of the fields is not kept either. `None` is the panic on an empty
      field, whose first character does not exist (the descriptor's own
      validation runs only after the indexes are created). */
  function IndexKeysAsWritten(fields: seq<string>): (r: Option<Doc>)
    ensures r.None? <==> exists i | 0 <= i < |fields| :: fields[i] == ""
    ensures r.Some? ==> r.value.Keys == set i | 0 <= i < |fields| :: fields[i]
    ensures r.Some? ==> forall i | 0 <= i < |fields| :: r.value[fields[i]] == MarkerType(fields[i][0])
  {
    if |fields| == 0 then Some(map[])
    else if fields[0] == "" then None
    else
      assert forall i | 1 <= i < |fields| :: fields[i] == fields[1..][i - 1];
      match IndexKeysAsWritten(fields[1..])
      case None => None
      case Some(rest) =>
        assert (set i | 0 <= i < |fields| :: fields[i]) == (set i | 0 <= i < |fields[1..]| :: fields[1..][i]) + {fields[0]};
        Some(rest[fields[0] := MarkerType(fields[0][0])])
  }

  /** One entry of an index's key specification. */
  datatype IndexKey = IndexKey(field: string, kind: Value)

  /** The field a specification entry names: the entry without its marker. */
  function FieldName(entry: string): (f: string)
    requires entry != ""
    ensures IsMarker(entry[0]) ==> entry == [entry[0]] + f
    ensures !IsMarker(entry[0]) ==> f == entry
  {
    if IsMarker(entry[0]) then entry[1..] else entry
  }

  /** The keys as the marker convention means them: in declaration order,
      each naming the field without its marker. */
  function OrderedIndexKeys(fields: seq<string>): (r: Option<seq<IndexKey>>)
    ensures r.None? <==> exists i | 0 <= i < |fields| :: fields[i] == ""
    ensures r.Some? ==> |r.value| == |fields|
    ensures r.Some? ==> forall i | 0 <= i < |fields| ::
      r.value[i] == IndexKey(FieldName(fields[i]), MarkerType(fields[i][0]))
  {
    if |fields| == 0 then Some([])
    else if fields[0] == "" then None
    else
      assert forall i | 1 <= i < |fields| :: fields[i] == fields[1..][i - 1];
      match OrderedIndexKeys(fields[1..])
      case None => None
      case Some(rest) => Some([IndexKey(FieldName(fields[0]), MarkerType(fields[0][0]))] + rest)
  }

  /** Both readings assign every entry the same index type; they differ
      only in the key name and in whether the order survives. */
  lemma KeyReadingsAgreeOnTypes(fields: seq<string>)
    ensures IndexKeysAsWritten(fields).Some? <==> OrderedIndexKeys(fields).Some?
    ensures OrderedIndexKeys(fields).Some? ==> forall i | 0 <= i < |fields| ::
      IndexKeysAsWritten(fields).value[fields[i]] == OrderedIndexKeys(fields).value[i].kind
  {
  }

  /** A marked entry is stored under its marked name, which is not the
      field it is meant to index; the intended reading indexes the field. */
  lemma MarkerKeptInKey(entry: string)
    requires entry != "" && IsMarker(entry[0])
    ensures IndexKeysAsWritten([entry]) == Some(map[entry := MarkerType(entry[0])])
    ensures FieldName(entry) != entry
    ensures FieldName(entry) !in IndexKeysAsWritten([entry]).value.Keys
    ensures OrderedIndexKeys([entry]) == Some([IndexKey(entry[1..], MarkerType(entry[0]))])
  {
    assert [entry][1..] == [];
    assert FieldName(entry) == entry[1..];
    assert |FieldName(entry)| < |entry|;
    assert [entry][0] != "";
    assert OrderedIndexKeys([entry]).Some?;
    assert OrderedIndexKeys([entry]).value == [IndexKey(FieldName(entry), MarkerType(entry[0]))];
  }

  /** A compound index declared as `[a, b]` builds the same keys document
      as `[b, a]`, while the declared order is what a compound index is
      ordered by. */
  lemma KeyOrderLost(a: string, b: string)
    requires a != "" && b != "" && FieldName(a) != FieldName(b)
    ensures IndexKeysAsWritten([a, b]) == IndexKeysAsWritten([b, a])
    ensures OrderedIndexKeys([a, b]) != OrderedIndexKeys([b, a])
  {
    assert [a, b][1..] == [b] && [b][1..] == [];
    assert [b, a][1..] == [a] && [a][1..] == [];
    var ta, tb := MarkerType(a[0]), MarkerType(b[0]);
    assert IndexKeysAsWritten([a, b]) == Some(map[][b := tb][a := ta]);
    assert IndexKeysAsWritten([b, a]) == Some(map[][a := ta][b := tb]);
    assert a != b;
    assert map[][b := tb][a := ta] == map[][a := ta][b := tb];
    assert OrderedIndexKeys([a, b]).value[0].field == FieldName(a);
    assert OrderedIndexKeys([b, a]).value[0].field == FieldName(b);
  }

  /** The index creation request `prepareIndices` sends: a keys document
      (a map, so unordered), a name and its options. */
  datatype IndexModel = IndexModel(keys: Doc, name: string, sparse: bool, unique: bool)

  /** The request as the marker convention means it: ordered keys naming
      the fields without their markers. */
  datatype OrderedIndexModel = OrderedIndexModel(keys: seq<IndexKey>, name: string, sparse: bool, unique: bool)

  /** The request for one declared index, as written: named after its map
      key, always sparse, unique as declared, keyed by the whole entries;
      `None` on an empty field entry. */
  function PrepareIndex(name: string, index: Index): (r: Option<IndexModel>)
    ensures r.None? <==> exists i | 0 <= i < |index.fields| :: index.fields[i] == ""
    ensures r.Some? ==> r.value.name == name && r.value.sparse && r.value.unique == index.unique
    ensures r.Some? ==> r.value.keys.Keys == set i | 0 <= i < |index.fields| :: index.fields[i]
    ensures r.Some? ==> forall i | 0 <= i < |index.fields| ::
      r.value.keys[index.fields[i]] == MarkerType(index.fields[i][0])
  {
    match IndexKeysAsWritten(index.fields)
    case None => None
    case Some(keys) => Some(IndexModel(keys, name, true, index.unique))
  }

  /** The request for one declared index with the keys the markers mean:
      same name and options, one key per field in declaration order. */
  function PrepareOrderedIndex(name: string, index: Index): (r: Option<OrderedIndexModel>)
    ensures r.None? <==> exists i | 0 <= i < |index.fields| :: index.fields[i] == ""
    ensures r.Some? ==> r.value.name == name && r.value.sparse && r.value.unique == index.unique
    ensures r.Some? ==> |r.value.keys| == |index.fields|
    ensures r.Some? ==> forall i | 0 <= i < |index.fields| ::
      r.value.keys[i].field == FieldName(index.fields[i]) && r.value.keys[i].kind == MarkerType(index.fields[i][0])
  {
    match OrderedIndexKeys(index.fields)
    case None => None
    case Some(keys) => Some(OrderedIndexModel(keys, name, true, index.unique))
  }

  /** A declared `-createdAt` index: as written the request keys the field
      `-createdAt` descending; as meant it keys `createdAt` descending. */
  lemma PrepareIndexKeepsMarker(name: string, unique: bool, field: string)
    requires field != ""
    ensures PrepareIndex(name, Index(unique, ["-" + field])).value.keys == map["-" + field := Int(-1)]
    ensures PrepareOrderedIndex(name, Index(unique, ["-" + field])).value.keys == [IndexKey(field, Int(-1))]
  {
    var entry := "-" + field;
    MarkerKeptInKey(entry);
    assert entry[1..] == field;
  }

  /** The index of the auth collection: `{"api-key": 1}`, named `api-key`,
      unique and sparse. */
  function AuthIndex(): (m: IndexModel)
    ensures m.name == "api-key" && m.sparse && m.unique
    ensures m.keys == map["api-key" := Int(1)]
  {
    IndexModel(map["api-key" := Int(1)], "api-key", true, true)
  }

  /** The auth index is what declaring a unique index `api-key` on the field
      `api-key` would produce, under either reading of the keys. */
  lemma AuthIndexIsADeclaredIndex()
    ensures PrepareIndex("api-key", Index(true, ["api-key"])) == Some(AuthIndex())
    ensures PrepareOrderedIndex("api-key", Index(true, ["api-key"])).value.keys == [IndexKey("api-key", Int(1))]
  {
    assert !IsMarker("api-key"[0]);
    assert ["api-key"][1..] == [];
    assert IndexKeysAsWritten(["api-key"]) == Some(map["api-key" := Int(1)]);
    assert OrderedIndexKeys(["api-key"]).value == [IndexKey("api-key", Int(1))];
  }

  /** The error kind `wrapStatus` substitutes for a bare status; `None`
      for statuses it leaves alone. */
  function RewriteKind(status: int): (f: Option<Fixed>)
    ensures f.Some? <==> status in {404, 500, 405, 403, 401}
    ensures f.Some? ==> Status(f.value) == status
  {
    if status == 404 then Some(NotFound)
    else if status == 500 then Some(InternalError)
    else if status == 405 then Some(MethodNotAllowed)
    else if status == 403 then Some(AuthForbidden)
    else if status == 401 then Some(AuthNotFound)
    else None
  }

  const JsonContentType: string := "application/json"

  /** `wrapStatus`: after the handler, a response whose content type does not
      contain `application/json` (compared case-sensitively) and whose status
      is one of the five error statuses is replaced by the standard JSON
      error for that status; `None` leaves the response as it is. */
  function WrapStatus(contentType: string, status: int): (r: Option<Response>)
    ensures r.Some? <==> !Contains(contentType, JsonContentType) && status in {404, 500, 405, 403, 401}
    ensures r.Some? ==> r.value.status == status && r.value == ErrorResponse(RewriteKind(status).value)
    ensures status == 401 && r.Some? ==> r.value == ErrorResponse(AuthNotFound)
  {
    if Contains(contentType, JsonContentType) then None
    else
      match RewriteKind(status)
      case None => None
      case Some(f) => Some(ErrorResponse(f))
  }

  /** The rewrite keeps the status and yields a JSON response, which a second
      pass leaves alone. */
  lemma WrapStatusIsStable(contentType: string, status: int)
    requires WrapStatus(contentType, status).Some?
    ensures WrapStatus(JsonContentType, WrapStatus(contentType, status).value.status).None?
  {
    assert OccursAt(JsonContentType, JsonContentType, 0);
  }

  /** A JSON response is never rewritten, whatever its status. */
  lemma JsonResponsesPassThrough(contentType: string, status: int)
    requires StartsWith(contentType, JsonContentType)
    ensures WrapStatus(contentType, status).None?
  {
    assert OccursAt(contentType, JsonContentType, 0);
  }
}

=== FILE: single_record_helpers.dfy ===
/** The older string-id revision of the record operations,
    app/single_record_helpers.go: ids arrive as hexadecimal strings. Its
    update factory composes its filter from the wrong variable; both that
    reading and the intended one are given. */
module SingleRecordHelpers {
  import opened Base
  import opened ObjectIds
  import opened Documents
  import RecordHelpers

  /** The error `ObjectIDFromHex` returns for an id whose length in bytes
      is not 24. */
  const InvalidHex: StoreError := Failed("the provided hex string is not a valid ObjectID")

  /** The first byte of `s` that is not a hexadecimal digit. */
  function FirstNonHexByte(s: seq<Byte>): (b: Byte)
    requires exists i | 0 <= i < |s| :: !IsHexByte(s[i])
    ensures exists j | 0 <= j < |s| :: s[j] == b && !IsHexByte(b) && forall k | 0 <= k < j :: IsHexByte(s[k])
  {
    if !IsHexByte(s[0]) then s[0]
    else
      var i :| 0 <= i < |s| && !IsHexByte(s[i]);
      assert s[1..][i - 1] == s[i];
      var b := FirstNonHexByte(s[1..]);
      var j :| 0 <= j < |s[1..]| && s[1..][j] == b && !IsHexByte(b) && forall k | 0 <= k < j :: IsHexByte(s[1..][k]);
      assert s[j + 1] == b && forall k | 0 <= k < j + 1 :: IsHexByte(s[k]);
      b
  }

  /** The error of `ObjectIDFromHex` for a malformed id. Go's `len` counts
      the id's UTF-8 bytes: any count but 24 is `ErrInvalidHex`, otherwise
      the hex decoder reports the first byte that is not a digit. */
  function HexError(id: string): (e: StoreError)
    requires FromHex(id).None?
    ensures |Utf8Bytes(id)| != 24 ==> e == InvalidHex
    ensures |Utf8Bytes(id)| == 24 ==> e.InvalidByte? && !IsHexByte(e.b)
    ensures |Utf8Bytes(id)| == 24 ==>
      exists j | 0 <= j < 24 :: Utf8Bytes(id)[j] == e.b && forall k | 0 <= k < j :: IsHexByte(Utf8Bytes(id)[k])
  {
    var bytes := Utf8Bytes(id);
    if |bytes| != 24 then InvalidHex
    else
      FromHexReadsBytes(id);
      InvalidByte(FirstNonHexByte(bytes))
  }

  /** Twelve two-byte characters make 24 bytes, so the length check passes
      and the decoder stops at the first lead byte. */
  lemma TwoByteIdFailsOnLeadByte(id: string)
    requires |id| == 12 && forall i | 0 <= i < |id| :: 0x80 <= id[i] as int < 0x800
    ensures FromHex(id).None?
    ensures HexError(id) == InvalidByte(0xC0 + id[0] as int / 64)
  {
    TwoByteLength(id);
    assert Utf8Bytes(id)[0] == Utf8(id[0])[0];
  }

  lemma {:induction false} TwoByteLength(s: string)
    requires forall i | 0 <= i < |s| :: 0x80 <= s[i] as int < 0x800
    ensures |Utf8Bytes(s)| == 2 * |s|
  {
    if |s| > 0 {
      TwoByteLength(s[1..]);
    }
  }

  /** Twenty-four characters of which one is outside ASCII are more than
      24 bytes: the length check fails before any digit is read. */
  lemma WideCharacterIdIsInvalidHex(id: string, i: nat)
    requires |id| == 24 && i < 24 && id[i] as int >= 0x80
    ensures FromHex(id).None?
    ensures HexError(id) == InvalidHex
  {
  }

  /** `setId` (string revision): an empty id gives a copy of the static
      filter; a malformed id gives the parse error and no filter; a
      well-formed one pins `_id` and, under soft delete, excludes deleted
      documents. */
  function SetId(filter: Doc, id: string, softDelete: bool): (r: Result<Doc, StoreError>)
    ensures |id| == 0 ==> r == Success(filter)
    ensures |id| > 0 ==> (r.Failure? <==> FromHex(id).None?)
    ensures r.Failure? && |Utf8Bytes(id)| != 24 ==> r.error == InvalidHex
    ensures r.Failure? && |Utf8Bytes(id)| == 24 ==>
      r.error.InvalidByte? && !IsHexByte(r.error.b) && r.error.b in Utf8Bytes(id)
    ensures |id| > 0 && r.Success? ==>
      && r.value.Keys == filter.Keys + {IdField} + (if softDelete then {DeletedField} else {})
      && r.value[IdField] == Id(FromHex(id).value)
      && (softDelete ==> r.value[DeletedField] == RecordHelpers.NotTrue)
      && (forall k | k in filter && k != IdField && (k != DeletedField || !softDelete) :: r.value[k] == filter[k])
  {
    if |id| == 0 then Success(filter)
    else
      match FromHex(id)
      case None => Failure(HexError(id))
      case Some(oid) => Success(RecordHelpers.WithIdentity(filter, oid, softDelete))
  }

  /** Unlike the ObjectID revision, the all-zero id here is an identity like
      any other: it pins `_id` rather than selecting any document. */
  lemma ZeroStringIdPinsIdentity(filter: Doc, softDelete: bool, zeros: string)
    requires |zeros| == 24 && forall i | 0 <= i < |zeros| :: zeros[i] == '0'
    ensures var r := SetId(filter, zeros, softDelete);
      r.Success? && r.value[IdField] == Id(NilObjectId)
  {
    DecodeZeros(zeros);
    assert seq(12, _ => 0) == NilObjectId;
  }

  lemma {:induction false} DecodeZeros(s: string)
    requires |s| % 2 == 0 && forall i | 0 <= i < |s| :: s[i] == '0'
    ensures DecodeHex(s) == Some(seq(|s| / 2, _ => 0))
    decreases |s|
  {
    if |s| > 0 {
      DecodeZeros(s[2..]);
      assert HexValue(s[0]) == Some(0) && HexValue(s[1]) == Some(0);
      assert DecodeHex(s) == Some([0] + seq(|s[2..]| / 2, _ => 0));
      assert seq(|s| / 2, _ => 0) == [0] + seq(|s[2..]| / 2, _ => 0);
    } else {
      assert DecodeHex(s) == Some([]);
      assert seq(|s| / 2, _ => 0) == [];
    }
  }

  /** `deleteOne`: composes from the resource filter. */
  function DeleteOne(filter: Doc, softDelete: bool, id: string, deletedCount: Result<nat, StoreError>)
    : (r: Result<RecordHelpers.Reported, StoreError>)
    ensures r.Failure? <==> SetId(filter, id, softDelete).Failure?
    ensures r.Success? ==>
      && r.value.call == RecordHelpers.DeleteCall(SetId(filter, id, softDelete).value)
      && r.value.result == RecordHelpers.Flag(deletedCount)
  {
    match SetId(filter, id, softDelete)
    case Failure(e) => Failure(e)
    case Success(f) => Success(RecordHelpers.Reported(RecordHelpers.DeleteCall(f), RecordHelpers.Flag(deletedCount)))
  }

  /** `updateOne` as written: composes from its own, still empty, `filter_`
      instead of the resource filter, so static-filter entries never reach
      an update; the patch is always sent as `{"$set": updates}`. */
  function UpdateOneAsWritten(filter: Doc, softDelete: bool, id: string, updates: Doc, modifiedCount: Result<nat, StoreError>)
    : (r: Result<RecordHelpers.Reported, StoreError>)
    ensures r.Failure? <==> SetId(map[], id, softDelete).Failure?
    ensures r.Success? ==>
      && r.value.call == RecordHelpers.UpdateCall(SetId(map[], id, softDelete).value, RecordHelpers.SetUpdate(updates))
      && r.value.result == RecordHelpers.Flag(modifiedCount)
  {
    var uninitialised: Doc := map[];
    match SetId(uninitialised, id, softDelete)
    case Failure(e) => Failure(e)
    case Success(f) =>
      Success(RecordHelpers.Reported(RecordHelpers.UpdateCall(f, RecordHelpers.SetUpdate(updates)), RecordHelpers.Flag(modifiedCount)))
  }

  /** `updateOne` composing from the resource filter, as its siblings do. */
  function UpdateOne(filter: Doc, softDelete: bool, id: string, updates: Doc, modifiedCount: Result<nat, StoreError>)
    : (r: Result<RecordHelpers.Reported, StoreError>)
    ensures r.Failure? <==> SetId(filter, id, softDelete).Failure?
    ensures r.Success? ==>
      && r.value.call == RecordHelpers.UpdateCall(SetId(filter, id, softDelete).value, RecordHelpers.SetUpdate(updates))
      && r.value.result == RecordHelpers.Flag(modifiedCount)
  {
    match SetId(filter, id, softDelete)
    case Failure(e) => Failure(e)
    case Success(f) =>
      Success(RecordHelpers.Reported(RecordHelpers.UpdateCall(f, RecordHelpers.SetUpdate(updates)), RecordHelpers.Flag(modifiedCount)))
  }

  /** `replaceOne`: composes from the resource filter. */
  function ReplaceOne(filter: Doc, softDelete: bool, id: string, replacement: Doc, modifiedCount: Result<nat, StoreError>)
    : (r: Result<RecordHelpers.Reported, StoreError>)
    ensures r.Failure? <==> SetId(filter, id, softDelete).Failure?
    ensures r.Success? ==>
      && r.value.call == RecordHelpers.ReplaceCall(SetId(filter, id, softDelete).value, replacement)
      && r.value.result == RecordHelpers.Flag(modifiedCount)
  {
    match SetId(filter, id, softDelete)
    case Failure(e) => Failure(e)
    case Success(f) => Success(RecordHelpers.Reported(RecordHelpers.ReplaceCall(f, replacement), RecordHelpers.Flag(modifiedCount)))
  }

  /** As written, the update filter drops every static entry other than the
      identity clauses, where replace and delete keep them: a
      tenant-scoping filter does not restrict updates. The corrected update
      filters exactly as replace and delete do. */
  lemma UpdateIgnoresStaticFilter(filter: Doc, softDelete: bool, id: string, updates: Doc, n: Result<nat, StoreError>, k: string)
    requires FromHex(id).Some? && k in filter && k != IdField && k != DeletedField
    ensures UpdateOneAsWritten(filter, softDelete, id, updates, n).value.call.filter.Keys <= {IdField, DeletedField}
    ensures k !in UpdateOneAsWritten(filter, softDelete, id, updates, n).value.call.filter
    ensures UpdateOne(filter, softDelete, id, updates, n).value.call.filter
         == ReplaceOne(filter, softDelete, id, updates, n).value.call.filter
         == DeleteOne(filter, softDelete, id, n).value.call.filter
    ensures k in ReplaceOne(filter, softDelete, id, updates, n).value.call.filter
    ensures k in DeleteOne(filter, softDelete, id, n).value.call.filter
  {
  }
}
